=== FILE: README.md ===
# Video Downloader download core, in Dafny

A model of the download core of `VD.py`, the single-file PyQt6 video
downloader, together with proofs about it. Four parts are modelled:

- **URL parsing** (`UrlList`, on top of `Text`). The *Add Download* text is
  stripped and split on newlines. Each line is split on commas, each field
  stripped, and empty fields are dropped. Python's `str.strip`, `str.split` and
  `str.lower` are defined in `Text`, with whitespace meaning the characters
  `str.isspace` accepts.
- **The download table** (`Downloads`). This is the GUI's `downloads`
  dictionary from URL to `DownloadInfo`, together with the order of the
  download rows in the window. It covers every transition the GUI applies:
  `add_download`, `start_download`, `update_progress`, `toggle_pause`,
  `cancel_download`, `download_finished` and `clear_completed_downloads`.
  `WellFormed` is the invariant every reachable table keeps: one row per
  entry, each entry keyed by its own URL, and the status agreeing with the
  worker's `is_paused` and `is_cancelled` flags.
- **The strategy fallback** (`Fallback`). `DownloadThread.run` tries yt-dlp
  first, then `download_with_requests` for direct links, then urllib. It reads
  the cancel flag after yt-dlp returns, after a successful
  `download_with_requests` and after urllib returns. A failed
  `download_with_requests` goes straight on to urllib without reading the flag.
  `run` emits `finished_signal` at most once. `is_direct_link` is the lower-cased suffix test against the six
  video extensions.
- **The chunk loop** (`Transfer`). This is the streaming branch of
  `download_with_requests`: one progress event per non-empty chunk, carrying
  the running byte count. The loop stops with failure as soon as its cancel
  check fires, and a zero `content-length` writes the body in one go.

`Session` ties these together. It applies any sequence of GUI events to the
table and proves what holds of every table the GUI can reach. It also proves
how the transitions interact with each other and with the signal a `run`
delivers.

Outside effects are parameters. Whether a strategy succeeds is an `Outcomes`
value. The body the server sends is a sequence of chunk lengths. The moment the
user presses *Cancel* is an `Option<nat>` giving the first flag check that sees
the flag raised.

### Where the code does not do what its design suggests

The model follows the code in each of these places, and a lemma states each
behaviour:

- Finished, failed and cancelled entries can still change into one another.
  `cancel_download` marks a completed entry as cancelled
  (`Session.CancelOverwritesFinished`). `download_finished` overwrites a
  cancellation with completed or error (`Session.FinishedOverwritesCancel`).
  No event brings such an entry back to downloading or paused
  (`Session.TerminalStaysTerminal`).
- When yt-dlp succeeds but the cancel flag is already up, `run` does not
  return. It goes on to the later strategies
  (`Fallback.CancelledSuccessFallsThrough`).
- `is_direct_link` tests the whole URL, query string included.
  `http://x/v.mp4?dl=1` is therefore not a direct link, while
  `http://x/watch?v=.mp4` is.
- The Pause and Cancel buttons are connected through `lambda u=url: ...`
  (VD.py:507-508). Following PyQt's documented behaviour, `clicked` passes
  its `checked` argument to a slot that can take one, so `u` is `False`
  rather than the URL. `toggle_pause` and `cancel_download` then find no
  entry and change nothing (`Session.UnknownKeyIgnored`). The model's events
  take the key as given, so these calls are among the runs `Session` covers.
- Adding a URL that is already in the table does nothing, whatever that
  entry's status is (`Session.ReAddIsNoOp`).
- An entry never stays `Queued`, because `add_download` starts it straight
  away. Every entry in a reachable table is downloading, paused, completed,
  failed or cancelled.
- When the body is longer than `content-length`, the reported percentage goes
  above 100. `Transfer.PercentAtMostHundred` needs the body to be no longer
  than the header says.

## Model

| member | source | states |
|---|---|---|
| `Text.Strip` | VD.py:485 | `str.strip()`: the result has no whitespace at either end, and it is the slice of the input left between two whitespace-only margins |
| `Text.Split` | VD.py:487 | `str.split(sep)`: at least one piece, no piece contains the separator, and joining the pieces with the separator gives back the input |
| `Text.SplitJoin` | VD.py:487 | splitting a join of separator-free pieces gives back exactly those pieces |
| `Text.StripStripped` | VD.py:489 | stripping a string with no whitespace at its ends leaves it unchanged |
| `Text.StripLeadingSpace` | VD.py:489 | a leading whitespace character does not change what a field strips to |
| `Text.StripUnique` | VD.py:489 | `strip()` is determined by its shape: a stripped core between whitespace-only margins strips to that core |
| `Text.StripMargins` | VD.py:485 | every string is its stripped core between two whitespace-only margins |
| `Text.LowerIdempotent` | VD.py:49 | lower-casing leaves no upper-case letter, so lower-casing twice is lower-casing once |
| `Text.LowerKeeps` | VD.py:49 | `lower()` leaves a string unchanged exactly when it holds no character that lower-cases |
| `Text.LowerAppend` | VD.py:49 | `lower()` works character by character, so it distributes over concatenation |
| `UrlList.FieldTokens` | VD.py:489 | the kept fields are non-empty and stripped, and there are no more of them than fields |
| `UrlList.FieldTokensAvoid` | VD.py:489 | stripping never brings in a character the fields lack, so fields without commas or newlines give tokens without them |
| `UrlList.FieldTokensSingle` | VD.py:489 | a single field yields its stripped form, or nothing when that is empty |
| `UrlList.LineTokensValid` | VD.py:487-489 | lines free of newlines yield only valid URL tokens |
| `UrlList.ParseUrls` | VD.py:485-489 | every URL the input text yields is non-empty, stripped, and free of commas and newlines |
| `UrlList.ParseCommaJoined` | VD.py:485-489 | valid URLs written as one comma-separated line are parsed back in order |
| `UrlList.ParseLineJoined` | VD.py:485-489 | valid URLs written one per line are parsed back in order |
| `UrlList.ParseTwoLines` | VD.py:485-489 | a two-line input, whatever whitespace surrounds it, yields the first line's URLs followed by the second's |
| `UrlList.ParseOneLine` | VD.py:485-489 | an input without newlines, whatever whitespace surrounds it, yields the tokens of its comma fields |
| `UrlList.ParseEmpty` | VD.py:485-489 | empty input yields no URL |
| `UrlList.FieldOfUrl` | VD.py:489 | a field made of whitespace followed by a URL yields that URL |
| `UrlList.CommaLine` | VD.py:489 | a line `a,` then whitespace then `b` yields the two URLs `a` and `b` |
| `UrlList.Fields` | VD.py:487-489 | cutting the text at every comma and newline gives at least one field, and no field contains either separator |
| `UrlList.FieldTokensAppend` | VD.py:489 | the tokens of two field lists are the tokens of each, one after the other |
| `UrlList.LineTokensFlatten` | VD.py:486-489 | collecting the tokens line by line equals taking the tokens of all the lines' comma fields together |
| `UrlList.FieldsByLines` | VD.py:487-489 | cutting at newlines, then every line at commas, is cutting at both separators at once |
| `UrlList.FieldsWithoutSeparator` | VD.py:487-489 | text without commas or newlines is a single field |
| `UrlList.FieldsAtSeparator` | VD.py:487-489 | text is cut at its first separator |
| `UrlList.LeadingSpaceFields` | VD.py:485-489 | whitespace, newlines included, in front of the text yields no URL |
| `Text.StripTrailingSpace` | VD.py:489 | a trailing whitespace character does not change what a field strips to |
| `UrlList.SpaceAfterField` | VD.py:485-489 | whitespace, newlines included, after a field yields no further URL |
| `UrlList.TrailingSpaceFields` | VD.py:485-489 | whitespace, newlines included, after the text yields no URL |
| `UrlList.SeparatorThenRest` | VD.py:487-489 | a separator keeps the field before it apart from whatever follows |
| `UrlList.ParseUrlsFields` | VD.py:485-489 | the URLs of the input are exactly the non-empty stripped fields between commas and newlines, in input order |
| `UrlList.OuterStripRedundant` | VD.py:485 | stripping the whole input before cutting it into lines changes no URL |
| `UrlList.CommaThenNewline` | VD.py:485-489 | commas and newlines both separate URLs, and whitespace after a comma is dropped: `a, b` newline `c` yields `[a, b, c]` |
| `Downloads.StartDownload` | VD.py:516-526 | the entry gets a fresh worker with both flags down and becomes downloading; no other field and no other entry changes |
| `Downloads.AddOne` | VD.py:490-511 | a stripped, non-empty URL not yet in the table gets a started entry and a new last row; anything else leaves the table unchanged |
| `Downloads.AddOneWellFormed` | VD.py:490-511 | one loop iteration of `add_download` keeps the table well formed |
| `Downloads.AddUrlsStepEntries` | VD.py:490-511 | one loop iteration followed by the rest of the loop keeps old entries and creates only started ones |
| `Downloads.AddUrlsStep` | VD.py:490-504 | one loop iteration followed by the rest of the loop keeps the old rows in front and gives every new entry a row after them |
| `Downloads.AddUrls` | VD.py:490-511 | the new keys are exactly the stripped non-empty URLs; old entries and old rows are kept; each new entry is a started record with exactly one row appended after the old ones, even when the URL repeats in the input |
| `Downloads.NewRowsDistinct` | VD.py:490-504 | the row one loop iteration appends differs from every row the rest of the loop appends |
| `Downloads.AddUrlsWellFormed` | VD.py:490-511 | the `add_download` loop keeps the table well formed |
| `Downloads.UrlSetOfTokens` | VD.py:490-492 | the re-strip in the `add_download` loop changes nothing for parsed URLs |
| `Downloads.AddDownload` | VD.py:483-511 | the table gains exactly the parsed URLs not yet in it, each as a started entry with exactly one new row, so there are as many new rows as new entries; existing entries and rows are untouched |
| `Downloads.AddDownloadWellFormed` | VD.py:483-511 | adding URLs keeps the table well formed |
| `Downloads.DistinctCount` | VD.py:500-504 | a list of distinct URLs that are exactly a set's elements has as many elements as the set |
| `Downloads.NewRowCount` | VD.py:500-504 | when the appended rows are distinct and are exactly the new keys, there are as many of them as new keys |
| `Downloads.UpdateProgress` | VD.py:536-542 | for a URL in the table, progress, size, speed and ETA take the reported values and nothing else changes; an unknown URL leaves the table unchanged |
| `Downloads.UpdateProgressWellFormed` | VD.py:536-542 | a progress report keeps the table well formed |
| `Downloads.TogglePause` | VD.py:554-569 | downloading becomes paused with the pause flag raised, and paused becomes downloading with it lowered; every other status, or an unknown URL, leaves the table unchanged |
| `Downloads.TogglePauseWellFormed` | VD.py:554-569 | the pause button keeps the table well formed, the pause flag agreeing with the status |
| `Downloads.CancelDownload` | VD.py:571-575 | an entry with a worker becomes cancelled with the cancel flag raised, whatever its status; nothing else changes |
| `Downloads.CancelDownloadWellFormed` | VD.py:571-575 | cancelling keeps the table well formed |
| `Downloads.DownloadFinished` | VD.py:624-653 | the entry's status becomes completed or error according to the signal, whatever it was; nothing else changes |
| `Downloads.DownloadFinishedWellFormed` | VD.py:624-653 | a `finished_signal` keeps the table well formed |
| `Downloads.DoneRows` | VD.py:594-606 | a row is collected for removal exactly when its entry is completed, cancelled or failed, without repetition |
| `Downloads.LiveRows` | VD.py:609-611 | a row stays exactly when its entry is not completed, cancelled or failed, and the rows that stay keep their order |
| `Downloads.SubsequenceStep` | VD.py:609-611 | dropping or keeping the first row keeps a subsequence of the remaining rows a subsequence of all of them |
| `Downloads.DistinctCard` | VD.py:614-618 | a list of distinct URLs has as many elements as its set, so the cleared count equals the number of deleted entries |
| `Downloads.ClearCompleted` | VD.py:592-618 | the completed, cancelled and failed rows and their entries go; the rest is unchanged and the remaining rows keep their order; the reported count is both the number of rows and the number of entries removed |
| `Downloads.ClearCount` | VD.py:614-618 | deleting the collected URLs removes exactly the completed, cancelled and failed entries, as many as were collected |
| `Downloads.ClearCompletedWellFormed` | VD.py:592-615 | clearing keeps the table well formed and keeps exactly the entries that are not completed, cancelled or failed |
| `Downloads.RowsPartition` | VD.py:600-611 | every row is either removed or kept |
| `Fallback.Run` | VD.py:157-197 | yt-dlp is always tried first; the run stops after it exactly when it succeeded with the flag down or failed with the flag up; requests is tried exactly for direct links that yt-dlp did not end the run for, and the run stops after it exactly when it succeeded; a signal is emitted exactly when the flag is down at the last check; success is reported only right after a strategy that succeeded, and failure only when every strategy tried failed |
| `Fallback.CancelBeforeFirstCheckSilences` | VD.py:174-180 | a cancel seen when yt-dlp returns means no `finished_signal` at all |
| `Fallback.CancelledSuccessFallsThrough` | VD.py:171-176 | a yt-dlp success seen with the cancel flag up does not end the run |
| `Fallback.FallbackOrder` | VD.py:177-197 | without cancellation, a yt-dlp failure falls back to requests for direct links and straight to urllib otherwise, and a signal is always emitted |
| `Fallback.DirectLinkIgnoresCase` | VD.py:46-49 | a URL and its lower-cased form are both direct links or both not |
| `Fallback.EndsInExtension` | VD.py:46-49 | any URL ending in one of the six extensions is a direct link |
| `Fallback.QueryDefeatsDirectLink` | VD.py:49 | `http://x/v.mp4?dl=1` is not a direct link |
| `Fallback.QueryMakesDirectLink` | VD.py:49 | `http://x/watch?v=.mp4` is a direct link |
| `Fallback.UpperCaseExtension` | VD.py:49 | `http://x/V.MKV` is a direct link |
| `Transfer.Processed` | VD.py:82-84 | the loop never processes more chunks than the body has |
| `Transfer.EmittedShape` | VD.py:82-100 | one event per non-empty chunk; the byte counts rise strictly, stay positive and within the bytes processed, and the last equals them; each event carries `content-length` |
| `Transfer.Stream` | VD.py:75-106 | a zero `content-length` succeeds with no event; otherwise the events are those of the chunks before the cancel check fires, rising strictly, and success holds exactly when the check never fires |
| `Transfer.PercentIncreasing` | VD.py:88-91 | with a positive `content-length`, the reported percentages rise strictly |
| `Transfer.PercentAtMostHundred` | VD.py:88-91 | when the body is no longer than `content-length`, every percentage lies in (0, 100] |
| `Transfer.FixedChunks` | VD.py:82 | `iter_content(chunk_size=n)` as fixed-size chunks: they add up to the body length, and none is empty or larger than `n` |
| `Transfer.SumCons` | VD.py:88 | the running byte count adds a chunk in front |
| `Transfer.CountAllNonEmpty` | VD.py:86 | when no chunk is empty, every chunk yields an event |
| `Transfer.FullBodyEvents` | VD.py:75-100 | a body of `total` bytes read in non-empty chunks of at most `n` bytes each, never cancelled, yields one event per chunk, at least `total / n` of them, the last at exactly 100 percent |
| `Transfer.SumAtMost` | VD.py:82-88 | chunks of at most `n` bytes add up to at most `n` bytes per chunk |
| `Transfer.WholePercent` | VD.py:88-91 | the event that reports the whole body reports 100 percent |
| `Transfer.MegabyteInEightKiBChunks` | VD.py:75-100 | a 1,000,000-byte body read in 8,192-byte chunks yields at least 120 events, the last at exactly 100 percent |
| `Session.Apply` | VD.py:483-653 | every GUI event keeps the table well formed, makes only the allowed status changes, and never lowers a raised cancel flag |
| `Session.Replay` | VD.py:483-653 | after any sequence of events the table is well formed, and no entry is queued |
| `Session.ReachableWellFormed` | VD.py:483-653 | every table reachable from the empty one is well formed |
| `Session.TerminalStaysTerminal` | VD.py:571-653 | no event moves a completed, cancelled or failed entry back to downloading or paused |
| `Session.TogglePauseTwice` | VD.py:554-569 | pressing pause twice gives back the table |
| `Session.UnknownKeyIgnored` | VD.py:554-575 | pausing or cancelling a key that has no entry changes nothing |
| `Session.CancelDisablesPause` | VD.py:554-575 | after a cancel, the pause button changes nothing |
| `Session.FinishedIdempotent` | VD.py:624-653 | a repeated `finished_signal` with the same result changes nothing |
| `Session.LastFinishedWins` | VD.py:624-653 | of two `finished_signal`s, the later one decides the status |
| `Session.FinishedUpdate` | VD.py:624-653 | a `finished_signal` for a known URL is a single update of that entry's status |
| `Session.FinishedOverwritesCancel` | VD.py:571-653 | a `finished_signal` after a cancel overwrites the cancelled status |
| `Session.CancelOverwritesFinished` | VD.py:571-653 | a cancel after completion turns the entry into a cancelled one |
| `Session.ReAddIsNoOp` | VD.py:490-492 | adding text whose URLs are all in the table already changes nothing |
| `Session.AddKnownUrls` | VD.py:490-492 | the `add_download` loop over URLs already in the table changes nothing |
| `Session.Deliver` | VD.py:521-522 | the signal of a run sets the entry's status to completed or error and changes nothing else: not the rows, not the entry's other fields, not the other entries; a silent run changes nothing |
| `Session.EarlyCancelStaysCancelled` | VD.py:174-180 | a cancel seen when yt-dlp returns leaves the entry cancelled after the run |

## Left out

- The PyQt6 window is not modelled. That covers the widgets, styles, dialogs, menus and the status-bar message of `clear_completed_downloads`, and the `findChild` lookups. Those lookups search by object name, which no row sets, so they never find a widget anyway.
- yt-dlp, `requests` and `urllib` are not modelled: their network I/O cannot be seen. Each strategy is reduced to whether it returns success.
- File names and paths are not modelled. That includes the name derivation in `download_with_requests`, whose `time.time()` fallback refers to a module `VD.py` never imports, so the call fails and is caught. It also includes the output directory and `change_output_directory`.
- `progress_hook` and the `report_progress` callback of `download_with_urllib` are not modelled as code. They emit progress events with floating-point labels, wait while the pause flag is up, and raise when the cancel flag is up. That raise is how a cancel makes yt-dlp or urllib fail, so it is folded into `Fallback.Outcomes`: a strategy the user cancelled is one that returned failure.
- `Transfer.Stream`: the size and speed labels of each progress event, and the pause wait loop (`msleep`), are left out. The loop's observable behaviour is the sequence of byte counts and the cancel exit. An exception raised while streaming shows up as a failed requests strategy in `Fallback.Outcomes`.
- `Transfer.ProgressEvent.Percent` is computed on exact reals, not IEEE doubles. Rounding is not modelled.
- The `print` calls that log errors in the exception handlers (VD.py:109, VD.py:154, VD.py:178) are left out; they only write to the console.
- Thread scheduling is not modelled: `QThread.start`, signal delivery across threads, and `closeEvent` waiting for workers. A cancel is modelled as the first flag check that sees it.
- `Fallback.Run` leaves out the outer `except` of `run` (VD.py:199-201). Every call inside the outer `try` already catches its own exceptions.
- `Text.Lower` lower-cases only ASCII letters and the KELVIN SIGN. No other character's lower case ends in an ASCII letter that can complete a video extension, so `is_direct_link` is unaffected.
- The text field is taken as an arbitrary string. A single-line Qt input box may never deliver a newline; parsing handles one either way.

=== FILE: downloads.dfy ===
/**
 The download table of `VideoDownloaderGUI` (VD.py:16-33, 483-653): a map from URL
 to `DownloadInfo`, together with the order of the download rows shown in the
 window, and the transitions the GUI applies to it.
 */
module Downloads {
  import opened Options
  import Text
  import UrlList

  /** `DownloadStatus` */
  datatype Status = Queued | Downloading | Paused | Completed | Error | Cancelled

  /** The `completed_statuses` list of `clear_completed_downloads`. */
  predicate IsTerminal(s: Status) {
    s == Completed || s == Cancelled || s == Error
  }

  /** The two flags of a `DownloadThread` that the GUI writes and the thread polls. */
  datatype Worker = Worker(isPaused: bool, isCancelled: bool)

  /** `DownloadInfo`; `worker` is the `thread` field. */
  datatype DownloadInfo = DownloadInfo(
    url: string,
    status: Status,
    progress: real,
    filename: string,
    worker: Option<Worker>,
    size: string,
    speed: string,
    eta: string)

  /** The GUI's `downloads` dictionary and the URLs of its download rows, top to bottom. */
  datatype Manager = Manager(downloads: map<string, DownloadInfo>, rows: seq<string>)

  const Empty := Manager(map[], [])

  /** The record `add_download` creates before starting it. */
  function NewInfo(url: string): DownloadInfo {
    DownloadInfo(url, Queued, 0.0, "Pending...", None, "Unknown", "0 MB/s", "Unknown")
  }

  /** A record as it stands right after `start_download`. */
  function StartedInfo(url: string): DownloadInfo {
    NewInfo(url).(status := Downloading, worker := Some(Worker(false, false)))
  }

  predicate NoDuplicates(s: seq<string>) {
    forall i, j :: 0 <= i < j < |s| ==> s[i] != s[j]
  }

  /** The status and the worker's flags agree, as every GUI transition keeps them. */
  predicate Coherent(info: DownloadInfo) {
    && info.worker.Some?
    && info.status != Queued
    && (info.status == Downloading ==> !info.worker.value.isPaused && !info.worker.value.isCancelled)
    && (info.status == Paused ==> info.worker.value.isPaused && !info.worker.value.isCancelled)
    && (info.status == Cancelled ==> info.worker.value.isCancelled)
    && (info.worker.value.isCancelled ==> IsTerminal(info.status))
  }

  /** The invariant of every table the GUI can reach: one row per entry, keyed by its own URL. */
  predicate WellFormed(m: Manager) {
    && (forall k :: k in m.downloads ==> m.downloads[k].url == k && Coherent(m.downloads[k]))
    && NoDuplicates(m.rows)
    && (forall i :: 0 <= i < |m.rows| ==> m.rows[i] in m.downloads)
    && (forall k :: k in m.downloads ==> k in m.rows)
  }

  /** `start_download(url)`: attach a fresh worker and mark the entry downloading. */
  function StartDownload(m: Manager, url: string): (r: Manager)
    requires url in m.downloads
    ensures r.rows == m.rows
    ensures r.downloads.Keys == m.downloads.Keys
    ensures forall k :: k in m.downloads && k != url ==> r.downloads[k] == m.downloads[k]
    ensures r.downloads[url].status == Downloading
    ensures r.downloads[url].worker == Some(Worker(false, false))
    ensures r.downloads[url].(status := m.downloads[url].status, worker := m.downloads[url].worker)
            == m.downloads[url]
  {
    var info := m.downloads[url];
    m.(downloads := m.downloads[url := info.(worker := Some(Worker(false, false)), status := Downloading)])
  }

  /** One iteration of the `for url in urls` loop of `add_download`. */
  function AddOne(m: Manager, raw: string): (r: Manager)
    ensures var url := Text.Strip(raw);
      if url != [] && url !in m.downloads then
        r.downloads == m.downloads[url := StartedInfo(url)] && r.rows == m.rows + [url]
      else
        r == m
  {
    var url := Text.Strip(raw);
    if url != [] && url !in m.downloads then
      StartDownload(Manager(m.downloads[url := NewInfo(url)], m.rows + [url]), url)
    else
      m
  }

  lemma AddOneWellFormed(m: Manager, raw: string)
    requires WellFormed(m)
    ensures WellFormed(AddOne(m, raw))
  {
    var url := Text.Strip(raw);
    if url != [] && url !in m.downloads {
      var r := AddOne(m, raw);
      assert r.rows == m.rows + [url];
      forall i, j | 0 <= i < j < |r.rows|
        ensures r.rows[i] != r.rows[j]
      {
        if j == |m.rows| {
          assert r.rows[i] == m.rows[i];
        }
      }
    }
  }

  /** The URLs a list denotes once stripped, empties left out. */
  function UrlSet(urls: seq<string>): set<string>
    decreases |urls|
  {
    if |urls| == 0 then {}
    else
      var url := Text.Strip(urls[0]);
      (if url != [] then {url} else {}) + UrlSet(urls[1..])
  }

  /** The loop of `add_download` over an already split URL list. */
  function AddUrls(m: Manager, urls: seq<string>): (r: Manager)
    ensures r.downloads.Keys == m.downloads.Keys + UrlSet(urls)
    ensures forall k :: k in m.downloads ==> r.downloads[k] == m.downloads[k]
    ensures forall k :: k in r.downloads && k !in m.downloads ==> r.downloads[k] == StartedInfo(k)
    ensures |m.rows| <= |r.rows| && r.rows[..|m.rows|] == m.rows
    ensures forall i :: |m.rows| <= i < |r.rows| ==> r.rows[i] in r.downloads && r.rows[i] !in m.downloads
    ensures forall k :: k in r.downloads && k !in m.downloads ==> k in r.rows[|m.rows|..]
    ensures NoDuplicates(r.rows[|m.rows|..])
    decreases |urls|
  {
    if |urls| == 0 then
      m
    else
      var m1 := AddOne(m, urls[0]);
      var r := AddUrls(m1, urls[1..]);
      AddUrlsStepEntries(m, m1, r, urls[0]);
      AddUrlsStep(m, m1, r, urls[0]);
      NewRowsDistinct(m, m1, r, urls[0]);
      r
  }

  /** One loop iteration followed by the rest of the loop keeps the loop's promises about entries. */
  lemma AddUrlsStepEntries(m: Manager, m1: Manager, r: Manager, raw: string)
    requires m1 == AddOne(m, raw)
    requires m1.downloads.Keys <= r.downloads.Keys
    requires forall k :: k in m1.downloads ==> r.downloads[k] == m1.downloads[k]
    requires forall k :: k in r.downloads && k !in m1.downloads ==> r.downloads[k] == StartedInfo(k)
    ensures forall k :: k in m.downloads ==> r.downloads[k] == m.downloads[k]
    ensures forall k :: k in r.downloads && k !in m.downloads ==> r.downloads[k] == StartedInfo(k)
  {
  }

  /** One loop iteration followed by the rest of the loop keeps the loop's promises about rows. */
  lemma AddUrlsStep(m: Manager, m1: Manager, r: Manager, raw: string)
    requires m1 == AddOne(m, raw)
    requires |m1.rows| <= |r.rows| && r.rows[..|m1.rows|] == m1.rows
    requires forall i :: |m1.rows| <= i < |r.rows| ==> r.rows[i] in r.downloads && r.rows[i] !in m1.downloads
    requires forall k :: k in r.downloads && k !in m1.downloads ==> k in r.rows[|m1.rows|..]
    requires m1.downloads.Keys <= r.downloads.Keys
    ensures |m.rows| <= |r.rows| && r.rows[..|m.rows|] == m.rows
    ensures forall i :: |m.rows| <= i < |r.rows| ==> r.rows[i] in r.downloads && r.rows[i] !in m.downloads
    ensures forall k :: k in r.downloads && k !in m.downloads ==> k in r.rows[|m.rows|..]
  {
    var url := Text.Strip(raw);
    if url != [] && url !in m.downloads {
      assert m1.downloads.Keys == m.downloads.Keys + {url};
      AppendedRowStep(m.rows, m.downloads.Keys, url, r.rows, r.downloads.Keys);
    }
  }

  /** The row-list half of `AddUrlsStep`, on plain sequences and sets: `url` was appended after `rows0`. */
  lemma AppendedRowStep(rows0: seq<string>, keys0: set<string>, url: string, rows: seq<string>, keys: set<string>)
    requires url !in keys0 && url in keys
    requires |rows0| + 1 <= |rows| && rows[..|rows0| + 1] == rows0 + [url]
    requires forall i :: |rows0| + 1 <= i < |rows| ==> rows[i] in keys && rows[i] !in keys0 + {url}
    requires forall k :: k in keys && k !in keys0 + {url} ==> k in rows[|rows0| + 1..]
    ensures |rows0| <= |rows| && rows[..|rows0|] == rows0
    ensures forall i :: |rows0| <= i < |rows| ==> rows[i] in keys && rows[i] !in keys0
    ensures forall k :: k in keys && k !in keys0 ==> k in rows[|rows0|..]
  {
    assert rows[|rows0|] == (rows0 + [url])[|rows0|];
    assert rows[..|rows0|] == rows[..|rows0| + 1][..|rows0|];
    forall k | k in keys && k !in keys0
      ensures k in rows[|rows0|..]
    {
      if k == url {
        assert rows[|rows0|..][0] == url;
      } else {
        var j :| 0 <= j < |rows[|rows0| + 1..]| && rows[|rows0| + 1..][j] == k;
        assert rows[|rows0|..][j + 1] == k;
      }
    }
  }

  /** The row one loop iteration appends differs from every row the rest of the loop appends. */
  lemma NewRowsDistinct(m: Manager, m1: Manager, r: Manager, raw: string)
    requires m1 == AddOne(m, raw)
    requires |m1.rows| <= |r.rows| && r.rows[..|m1.rows|] == m1.rows
    requires forall i :: |m1.rows| <= i < |r.rows| ==> r.rows[i] !in m1.downloads
    requires NoDuplicates(r.rows[|m1.rows|..])
    ensures NoDuplicates(r.rows[|m.rows|..])
  {
    var url := Text.Strip(raw);
    if url != [] && url !in m.downloads {
      var tail := r.rows[|m1.rows|..];
      assert r.rows[|m.rows|..] == [url] + tail by {
        assert r.rows[|m.rows|] == m1.rows[|m.rows|];
      }
      forall j | 0 <= j < |tail|
        ensures tail[j] != url
      {
        assert tail[j] == r.rows[|m1.rows| + j];
      }
    }
  }

  lemma {:induction false} AddUrlsWellFormed(m: Manager, urls: seq<string>)
    ensures WellFormed(m) ==> WellFormed(AddUrls(m, urls))
    decreases |urls|
  {
    if |urls| > 0 && WellFormed(m) {
      AddOneWellFormed(m, urls[0]);
      AddUrlsWellFormed(AddOne(m, urls[0]), urls[1..]);
    }
  }

  /** Every URL of a parsed list is already stripped and non-empty, so it denotes itself. */
  lemma {:induction false} UrlSetOfTokens(urls: seq<string>)
    requires forall i :: 0 <= i < |urls| ==> UrlList.IsUrlToken(urls[i])
    ensures UrlSet(urls) == set x | x in urls
    decreases |urls|
  {
    if |urls| > 0 {
      Text.StripStripped(urls[0]);
      UrlSetOfTokens(urls[1..]);
      assert (set x | x in urls) == {urls[0]} + (set x | x in urls[1..]) by {
        assert urls == [urls[0]] + urls[1..];
      }
    }
  }

  /** `add_download`: parse the input text and start a download for every URL not yet in the table. */
  function AddDownload(m: Manager, text: string): (r: Manager)
    ensures r.downloads.Keys == m.downloads.Keys + (set u | u in UrlList.ParseUrls(text))
    ensures forall k :: k in m.downloads ==> r.downloads[k] == m.downloads[k]
    ensures forall k :: k in r.downloads && k !in m.downloads ==> r.downloads[k] == StartedInfo(k)
    ensures |m.rows| <= |r.rows| && r.rows[..|m.rows|] == m.rows
    ensures forall k :: k in r.downloads && k !in m.downloads ==> k in r.rows[|m.rows|..]
    ensures forall i :: |m.rows| <= i < |r.rows| ==> r.rows[i] in r.downloads && r.rows[i] !in m.downloads
    ensures NoDuplicates(r.rows[|m.rows|..])
    ensures |r.rows| - |m.rows| == |r.downloads.Keys - m.downloads.Keys|
  {
    var urls := UrlList.ParseUrls(text);
    UrlSetOfTokens(urls);
    NewRowCount(m, AddUrls(m, urls));
    AddUrls(m, urls)
  }

  lemma AddDownloadWellFormed(m: Manager, text: string)
    requires WellFormed(m)
    ensures WellFormed(AddDownload(m, text))
  {
    AddUrlsWellFormed(m, UrlList.ParseUrls(text));
  }

  /** One new row per new entry: the appended rows are exactly the new keys, each once. */
  lemma NewRowCount(m: Manager, r: Manager)
    requires |m.rows| <= |r.rows|
    requires forall i :: |m.rows| <= i < |r.rows| ==> r.rows[i] in r.downloads && r.rows[i] !in m.downloads
    requires forall k :: k in r.downloads && k !in m.downloads ==> k in r.rows[|m.rows|..]
    requires NoDuplicates(r.rows[|m.rows|..])
    ensures |r.rows| - |m.rows| == |r.downloads.Keys - m.downloads.Keys|
  {
    var added := r.rows[|m.rows|..];
    forall j | 0 <= j < |added|
      ensures added[j] in r.downloads.Keys - m.downloads.Keys
    {
      assert added[j] == r.rows[|m.rows| + j];
    }
    DistinctCount(added, r.downloads.Keys - m.downloads.Keys);
  }

  /** A list without repetitions whose elements are exactly a set has as many elements as the set. */
  lemma DistinctCount(s: seq<string>, keys: set<string>)
    requires NoDuplicates(s)
    requires forall j :: 0 <= j < |s| ==> s[j] in keys
    requires forall k :: k in keys ==> k in s
    ensures |s| == |keys|
  {
    DistinctCard(s);
    assert (set x | x in s) == keys;
  }

  /** `update_progress`: record the latest figures reported for a URL still in the table. */
  function UpdateProgress(m: Manager, url: string, progress: real, size: string, speed: string, eta: string): (r: Manager)
    ensures r.rows == m.rows
    ensures r.downloads.Keys == m.downloads.Keys
    ensures forall k :: k in m.downloads && k != url ==> r.downloads[k] == m.downloads[k]
    ensures url in m.downloads ==>
      var before, after := m.downloads[url], r.downloads[url];
      && after.progress == progress && after.size == size && after.speed == speed && after.eta == eta
      && after.url == before.url && after.status == before.status
      && after.filename == before.filename && after.worker == before.worker
    ensures url !in m.downloads ==> r == m
  {
    if url in m.downloads then
      var info := m.downloads[url];
      m.(downloads := m.downloads[url := info.(progress := progress, size := size, speed := speed, eta := eta)])
    else
      m
  }

  lemma UpdateProgressWellFormed(m: Manager, url: string, progress: real, size: string, speed: string, eta: string)
    requires WellFormed(m)
    ensures WellFormed(UpdateProgress(m, url, progress, size, speed, eta))
  {
  }

  /** `toggle_pause`: flip between downloading and paused, telling the worker. */
  function TogglePause(m: Manager, url: string): (r: Manager)
    ensures r.rows == m.rows
    ensures r.downloads.Keys == m.downloads.Keys
    ensures forall k :: k in m.downloads && k != url ==> r.downloads[k] == m.downloads[k]
    ensures url in m.downloads && m.downloads[url].worker.Some? && m.downloads[url].status == Downloading ==>
      var before, after := m.downloads[url], r.downloads[url];
      && after.status == Paused
      && after.worker == Some(before.worker.value.(isPaused := true))
      && after.(status := before.status, worker := before.worker) == before
    ensures url in m.downloads && m.downloads[url].worker.Some? && m.downloads[url].status == Paused ==>
      var before, after := m.downloads[url], r.downloads[url];
      && after.status == Downloading
      && after.worker == Some(before.worker.value.(isPaused := false))
      && after.(status := before.status, worker := before.worker) == before
    ensures (url !in m.downloads || m.downloads[url].worker.None?
             || m.downloads[url].status !in {Downloading, Paused}) ==> r == m
  {
    if url in m.downloads && m.downloads[url].worker.Some? then
      var info := m.downloads[url];
      var w := info.worker.value;
      if info.status == Downloading then
        m.(downloads := m.downloads[url := info.(status := Paused, worker := Some(w.(isPaused := true)))])
      else if info.status == Paused then
        m.(downloads := m.downloads[url := info.(status := Downloading, worker := Some(w.(isPaused := false)))])
      else
        m
    else
      m
  }

  lemma TogglePauseWellFormed(m: Manager, url: string)
    requires WellFormed(m)
    ensures WellFormed(TogglePause(m, url))
  {
  }

  /** `cancel_download`: raise the worker's cancel flag and mark the entry cancelled, whatever its status. */
  function CancelDownload(m: Manager, url: string): (r: Manager)
    ensures r.rows == m.rows
    ensures r.downloads.Keys == m.downloads.Keys
    ensures forall k :: k in m.downloads && k != url ==> r.downloads[k] == m.downloads[k]
    ensures url in m.downloads && m.downloads[url].worker.Some? ==>
      var before, after := m.downloads[url], r.downloads[url];
      && after.status == Cancelled
      && after.worker == Some(before.worker.value.(isCancelled := true))
      && after.(status := before.status, worker := before.worker) == before
    ensures url !in m.downloads || m.downloads[url].worker.None? ==> r == m
  {
    if url in m.downloads && m.downloads[url].worker.Some? then
      var info := m.downloads[url];
      m.(downloads := m.downloads[url := info.(worker := Some(info.worker.value.(isCancelled := true)),
                                                status := Cancelled)])
    else
      m
  }

  lemma CancelDownloadWellFormed(m: Manager, url: string)
    requires WellFormed(m)
    ensures WellFormed(CancelDownload(m, url))
  {
  }

  function FinalStatus(success: bool): Status {
    if success then Completed else Error
  }

  /** One of the two identical `if download_info:` blocks of `download_finished`. */
  function FinishBlock(m: Manager, url: string, success: bool): Manager {
    if url in m.downloads then
      m.(downloads := m.downloads[url := m.downloads[url].(status := FinalStatus(success))])
    else
      m
  }

  /** `download_finished`: the status becomes completed or error, overwriting whatever it was. */
  function DownloadFinished(m: Manager, url: string, success: bool): (r: Manager)
    ensures r.rows == m.rows
    ensures r.downloads.Keys == m.downloads.Keys
    ensures forall k :: k in m.downloads && k != url ==> r.downloads[k] == m.downloads[k]
    ensures url in m.downloads ==>
      && r.downloads[url].status == (if success then Completed else Error)
      && r.downloads[url].(status := m.downloads[url].status) == m.downloads[url]
    ensures url !in m.downloads ==> r == m
  {
    FinishBlock(FinishBlock(m, url, success), url, success)
  }

  lemma DownloadFinishedWellFormed(m: Manager, url: string, success: bool)
    requires WellFormed(m)
    ensures WellFormed(DownloadFinished(m, url, success))
  {
  }

  /** The rows whose entry is finished, cancelled or failed: `urls_to_remove`, in row order. */
  function DoneRows(rows: seq<string>, downloads: map<string, DownloadInfo>): (done: seq<string>)
    ensures forall x :: x in done <==> x in rows && x in downloads && IsTerminal(downloads[x].status)
    ensures NoDuplicates(rows) ==> NoDuplicates(done)
    decreases |rows|
  {
    if |rows| == 0 then []
    else
      var x := rows[0];
      (if x in downloads && IsTerminal(downloads[x].status) then [x] else []) + DoneRows(rows[1..], downloads)
  }

  /** `a` is `b` with some elements left out and the rest kept in their order. */
  predicate Subsequence(a: seq<string>, b: seq<string>)
    decreases |b|
  {
    if |a| == 0 then true
    else if |b| == 0 then false
    else (a[0] == b[0] && Subsequence(a[1..], b[1..])) || Subsequence(a, b[1..])
  }

  /** The rows that stay on screen, in their order. */
  function LiveRows(rows: seq<string>, downloads: map<string, DownloadInfo>): (live: seq<string>)
    ensures forall x :: x in live <==> x in rows && !(x in downloads && IsTerminal(downloads[x].status))
    ensures NoDuplicates(rows) ==> NoDuplicates(live)
    ensures Subsequence(live, rows)
    decreases |rows|
  {
    if |rows| == 0 then []
    else
      var x := rows[0];
      var rest := LiveRows(rows[1..], downloads);
      SubsequenceStep(rest, rows);
      if x in downloads && IsTerminal(downloads[x].status) then rest else [x] + rest
  }

  /** Dropping or keeping the first element of `b` keeps a subsequence of its tail a subsequence of `b`. */
  lemma SubsequenceStep(a: seq<string>, b: seq<string>)
    requires |b| > 0 && Subsequence(a, b[1..])
    ensures Subsequence(a, b)
    ensures Subsequence([b[0]] + a, b)
  {
    assert ([b[0]] + a)[1..] == a;
  }

  /** A sequence without repetitions has as many elements as its set. */
  lemma {:induction false} DistinctCard(s: seq<string>)
    requires NoDuplicates(s)
    ensures |set x | x in s| == |s|
    decreases |s|
  {
    if |s| > 0 {
      DistinctCard(s[1..]);
      assert (set x | x in s) == (set x | x in s[1..]) + {s[0]};
      assert s[0] !in s[1..];
    }
  }

  /** The URLs `clear_completed_downloads` removes: those with a row and a finished, cancelled or failed entry. */
  ghost function DoneSet(m: Manager): set<string> {
    set x | x in m.rows && x in m.downloads && IsTerminal(m.downloads[x].status)
  }

  /** `clear_completed_downloads`: drop every finished, cancelled or failed row and entry; report how many. */
  function ClearCompleted(m: Manager): (result: (Manager, nat))
    requires NoDuplicates(m.rows)
    ensures result.0.downloads.Keys == m.downloads.Keys - DoneSet(m)
    ensures forall k :: k in result.0.downloads ==> result.0.downloads[k] == m.downloads[k]
    ensures forall x :: x in result.0.rows <==> x in m.rows && x !in DoneSet(m)
    ensures Subsequence(result.0.rows, m.rows)
    ensures result.1 == |m.downloads| - |result.0.downloads|
    ensures result.1 == |m.rows| - |result.0.rows|
  {
    var done := DoneRows(m.rows, m.downloads);
    var r := Manager(map k | k in m.downloads && k !in done :: m.downloads[k], LiveRows(m.rows, m.downloads));
    ClearCount(m, done, r);
    RowsPartition(m.rows, m.downloads);
    (r, |done|)
  }

  lemma ClearCount(m: Manager, done: seq<string>, r: Manager)
    requires NoDuplicates(m.rows)
    requires done == DoneRows(m.rows, m.downloads)
    requires r.downloads == map k | k in m.downloads && k !in done :: m.downloads[k]
    ensures r.downloads.Keys == m.downloads.Keys - DoneSet(m)
    ensures |done| == |m.downloads| - |r.downloads|
  {
    var doneSet := set x | x in done;
    assert doneSet == DoneSet(m);
    DistinctCard(done);
    assert r.downloads.Keys == m.downloads.Keys - doneSet;
    assert doneSet <= m.downloads.Keys;
  }

  /** In a well-formed table, clearing keeps exactly the entries that are still queued, running or paused. */
  lemma ClearCompletedWellFormed(m: Manager)
    requires WellFormed(m)
    ensures WellFormed(ClearCompleted(m).0)
    ensures forall k :: k in ClearCompleted(m).0.downloads <==> k in m.downloads && !IsTerminal(m.downloads[k].status)
  {
    var r := ClearCompleted(m).0;
    assert forall k :: k in DoneSet(m) <==> k in m.downloads && IsTerminal(m.downloads[k].status);
    assert NoDuplicates(r.rows);
    assert forall i :: 0 <= i < |r.rows| ==> r.rows[i] in r.downloads by {
      forall i | 0 <= i < |r.rows|
        ensures r.rows[i] in r.downloads
      {
        assert r.rows[i] in r.rows;
      }
    }
    assert forall k :: k in r.downloads ==> k in r.rows;
  }

  lemma {:induction false} RowsPartition(rows: seq<string>, downloads: map<string, DownloadInfo>)
    ensures |rows| == |DoneRows(rows, downloads)| + |LiveRows(rows, downloads)|
    decreases |rows|
  {
    if |rows| > 0 {
      RowsPartition(rows[1..], downloads);
    }
  }
}

=== FILE: fallback.dfy ===
/**
 The decision logic of `DownloadThread.run` (VD.py:157-201) and `is_direct_link`
 (VD.py:46-49). Each retrieval strategy is reduced to whether it returned success,
 and the `is_cancelled` flag to the moment the GUI raised it.
 */
module Fallback {
  import opened Options
  import opened Text

  /** The three ways `run` tries to fetch a URL, in the order it tries them. */
  datatype Strategy = YtDlp | Requests | Urllib

  /** `video_extensions` of `is_direct_link`. */
  const VideoExtensions: seq<string> := [".mp4", ".webm", ".mkv", ".avi", ".mov", ".flv"]

  /** `is_direct_link`: the whole lower-cased URL, query and fragment included, ends in a video extension. */
  predicate IsDirectLink(url: string) {
    exists i :: 0 <= i < |VideoExtensions| && EndsWith(Lower(url), VideoExtensions[i])
  }

  /** Whether each strategy, if tried, returns success: yt-dlp's `download` does not raise,
      `download_with_requests` and `download_with_urllib` return True. */
  datatype Outcomes = Outcomes(ytDlp: bool, requests: bool, urllib: bool)

  function Succeeded(o: Outcomes, s: Strategy): bool {
    match s
    case YtDlp => o.ytDlp
    case Requests => o.requests
    case Urllib => o.urllib
  }

  /**
   `run` reads the flag after yt-dlp returns, whether it succeeded or raised, after a
   successful `download_with_requests`, and after urllib returns; a failed requests
   attempt goes on to urllib without a check. Each check is numbered by the strategy it follows.
   */
  function CheckPoint(s: Strategy): nat {
    match s
    case YtDlp => 1
    case Requests => 2
    case Urllib => 3
  }

  /**
   `cancel == Some(k)`: `cancel_download` raised the flag before check point `k`
   and it stays raised (nothing ever clears it); `None`: it was never raised.
   */
  predicate CancelSeen(cancel: Option<nat>, s: Strategy) {
    cancel.Some? && cancel.value <= CheckPoint(s)
  }

  /** What one execution of `run` does: the strategies it calls, and the `finished_signal` it emits, if any. */
  datatype RunResult = RunResult(attempted: seq<Strategy>, signal: Option<bool>)

  /** `DownloadThread.run` */
  function Run(url: string, o: Outcomes, cancel: Option<nat>): (r: RunResult)
    ensures r.attempted in {[YtDlp], [YtDlp, Requests], [YtDlp, Urllib], [YtDlp, Requests, Urllib]}
    // yt-dlp ends the run by succeeding unseen by the flag, or by failing with the flag up
    ensures |r.attempted| == 1 <==> o.ytDlp != CancelSeen(cancel, YtDlp)
    // requests is tried exactly for direct links that yt-dlp did not end the run for
    ensures Requests in r.attempted <==> IsDirectLink(url) && o.ytDlp == CancelSeen(cancel, YtDlp)
    // requests ends the run exactly when it succeeds
    ensures r.attempted[|r.attempted| - 1] == Requests <==> Requests in r.attempted && o.requests
    // the signal is emitted exactly when the flag is down at the check after the last strategy
    ensures r.signal.Some? <==> !CancelSeen(cancel, r.attempted[|r.attempted| - 1])
    // success is reported only right after a strategy that returned success
    ensures r.signal == Some(true) ==> Succeeded(o, r.attempted[|r.attempted| - 1])
    // failure is reported only when every strategy tried failed
    ensures r.signal == Some(false) ==> forall i :: 0 <= i < |r.attempted| ==> !Succeeded(o, r.attempted[i])
    // the run moves on from a strategy only if it failed or the flag was up after it
    ensures forall i :: 0 <= i < |r.attempted| - 1 ==>
              !Succeeded(o, r.attempted[i]) || CancelSeen(cancel, r.attempted[i])
  {
    if o.ytDlp && !CancelSeen(cancel, YtDlp) then
      RunResult([YtDlp], Some(true))
    else if !o.ytDlp && CancelSeen(cancel, YtDlp) then
      RunResult([YtDlp], None)
    else if IsDirectLink(url) && o.requests then
      RunResult([YtDlp, Requests], if CancelSeen(cancel, Requests) then None else Some(true))
    else
      var tried := if IsDirectLink(url) then [YtDlp, Requests, Urllib] else [YtDlp, Urllib];
      RunResult(tried, if CancelSeen(cancel, Urllib) then None else Some(o.urllib))
  }

  /** Once the flag is up when yt-dlp returns, no `finished_signal` is emitted at all. */
  lemma CancelBeforeFirstCheckSilences(url: string, o: Outcomes, cancel: Option<nat>)
    requires CancelSeen(cancel, YtDlp)
    ensures Run(url, o, cancel).signal == None
  {
  }

  /** A yt-dlp success seen together with the cancel flag does not end the run: the later strategies still run. */
  lemma CancelledSuccessFallsThrough(url: string, o: Outcomes, cancel: Option<nat>)
    requires o.ytDlp && CancelSeen(cancel, YtDlp)
    ensures |Run(url, o, cancel).attempted| >= 2
    ensures Run(url, o, cancel).attempted[|Run(url, o, cancel).attempted| - 1] != YtDlp
  {
  }

  /** With no cancellation, a failed yt-dlp run falls back to requests for a direct link, else straight to urllib. */
  lemma FallbackOrder(url: string, o: Outcomes)
    requires !o.ytDlp
    ensures IsDirectLink(url) ==> Run(url, o, None).attempted[1] == Requests
    ensures !IsDirectLink(url) ==> Run(url, o, None).attempted == [YtDlp, Urllib]
    ensures Run(url, o, None).signal.Some?
  {
  }

  /** Lower-casing twice is lower-casing once, so the test ignores case. */
  lemma {:induction false} DirectLinkIgnoresCase(url: string)
    ensures IsDirectLink(Lower(url)) <==> IsDirectLink(url)
  {
    LowerIdempotent(url);
  }

  /** Every URL that ends in a listed extension is a direct link, whatever comes before. */
  lemma {:induction false} EndsInExtension(prefix: string, i: nat)
    requires i < |VideoExtensions|
    ensures IsDirectLink(prefix + VideoExtensions[i])
  {
    var url := prefix + VideoExtensions[i];
    var ext := VideoExtensions[i];
    assert NoUpper(ext);
    LowerKeeps(ext);
    LowerAppend(prefix, ext);
    assert Lower(url)[|url| - |ext|..] == ext;
  }

  /** The test reads the whole URL: a query string after the extension defeats it. */
  lemma QueryDefeatsDirectLink()
    ensures !IsDirectLink("http://x/v.mp4?dl=1")
  {
    var l := Lower("http://x/v.mp4?dl=1");
    assert l[|l| - 1] == '1';
  }

  /** The test reads the whole URL: an extension in the query string satisfies it. */
  lemma QueryMakesDirectLink()
    ensures IsDirectLink("http://x/watch?v=.mp4")
  {
    EndsInExtension("http://x/watch?v=", 0);
    assert "http://x/watch?v=" + VideoExtensions[0] == "http://x/watch?v=.mp4";
  }

  /** Upper-case extensions count. */
  lemma UpperCaseExtension()
    ensures IsDirectLink("http://x/V.MKV")
  {
    var l := Lower("http://x/V.MKV");
    assert l[|l| - 4..] == ".mkv";
    assert EndsWith(l, VideoExtensions[2]);
  }
}

=== FILE: options.dfy ===
/** The optional value used for Python's `None`-or-object fields. */
module Options {

  datatype Option<+T> = None | Some(value: T)
}

=== FILE: session.dfy ===
/**
 Sequences of GUI events applied to the download table: the invariant every
 reachable table keeps, the status transitions the code allows, and how the
 transitions interact with each other and with the worker's final signal.
 */
module Session {
  import opened Options
  import opened Downloads
  import UrlList
  import Fallback

  /** One event the GUI reacts to: a button, a worker signal, or the clear action. */
  datatype Op =
    | Add(text: string)
    | Progress(url: string, progress: real, size: string, speed: string, eta: string)
    | TogglePauseOp(url: string)
    | CancelOp(url: string)
    | Finished(url: string, success: bool)
    | Clear

  /** The status changes the code can make to an entry that stays in the table. */
  predicate Allowed(before: Status, after: Status) {
    || before == after
    || (before == Downloading && after == Paused)
    || (before == Paused && after == Downloading)
    || IsTerminal(after)
  }

  /** The table after one event. */
  function Apply(m: Manager, op: Op): (r: Manager)
    requires WellFormed(m)
    ensures WellFormed(r)
    ensures forall k :: k in m.downloads && k in r.downloads ==> Allowed(m.downloads[k].status, r.downloads[k].status)
    ensures forall k :: k in m.downloads && k in r.downloads && m.downloads[k].worker.value.isCancelled ==>
              r.downloads[k].worker.value.isCancelled
  {
    match op
    case Add(text) => AddDownloadWellFormed(m, text); AddDownload(m, text)
    case Progress(url, p, size, speed, eta) =>
      UpdateProgressWellFormed(m, url, p, size, speed, eta); UpdateProgress(m, url, p, size, speed, eta)
    case TogglePauseOp(url) => TogglePauseWellFormed(m, url); TogglePause(m, url)
    case CancelOp(url) => CancelDownloadWellFormed(m, url); CancelDownload(m, url)
    case Finished(url, success) => DownloadFinishedWellFormed(m, url, success); DownloadFinished(m, url, success)
    case Clear => ClearCompletedWellFormed(m); ClearCompleted(m).0
  }

  /** The table after a sequence of events. */
  function Replay(m: Manager, ops: seq<Op>): (r: Manager)
    requires WellFormed(m)
    ensures WellFormed(r)
    ensures forall k :: k in r.downloads ==> r.downloads[k].url == k && r.downloads[k].status != Queued
    decreases |ops|
  {
    if |ops| == 0 then m else Replay(Apply(m, ops[0]), ops[1..])
  }

  /** Every table the GUI can reach from the empty one is well formed. */
  lemma ReachableWellFormed(ops: seq<Op>)
    ensures WellFormed(Replay(Empty, ops))
  {
  }

  /** No event takes an entry out of the finished, cancelled or failed group while it stays in the table. */
  lemma {:induction false} TerminalStaysTerminal(m: Manager, op: Op, url: string)
    requires WellFormed(m)
    requires url in m.downloads && IsTerminal(m.downloads[url].status)
    ensures url in Apply(m, op).downloads ==> IsTerminal(Apply(m, op).downloads[url].status)
  {
  }

  /** In a reachable table, pausing twice gives back the table. */
  lemma TogglePauseTwice(m: Manager, url: string)
    requires WellFormed(m)
    ensures TogglePause(TogglePause(m, url), url) == m
  {
    var m2 := TogglePause(TogglePause(m, url), url);
    if url in m.downloads && m.downloads[url].status in {Downloading, Paused} {
      assert Coherent(m.downloads[url]);
      assert m2.downloads[url] == m.downloads[url];
      assert forall k :: k in m.downloads ==> m2.downloads[k] == m.downloads[k];
      assert m2.downloads == m.downloads;
    }
  }

  /** The pause and cancel slots ignore a key with no entry, such as the `False` a `clicked` signal can pass. */
  lemma UnknownKeyIgnored(m: Manager, key: string)
    requires key !in m.downloads
    ensures TogglePause(m, key) == m
    ensures CancelDownload(m, key) == m
  {
  }

  /** A cancelled entry ignores the pause button. */
  lemma CancelDisablesPause(m: Manager, url: string)
    ensures TogglePause(CancelDownload(m, url), url) == CancelDownload(m, url)
  {
  }

  /** The second `finished_signal` for a URL changes nothing if it carries the same result. */
  lemma FinishedIdempotent(m: Manager, url: string, success: bool)
    ensures DownloadFinished(DownloadFinished(m, url, success), url, success) == DownloadFinished(m, url, success)
  {
  }

  /** Of two `finished_signal`s for a URL, the later one decides the status. */
  lemma LastFinishedWins(m: Manager, url: string, first: bool, second: bool)
    ensures DownloadFinished(DownloadFinished(m, url, first), url, second) == DownloadFinished(m, url, second)
  {
    if url in m.downloads {
      var info := m.downloads[url];
      var m1 := DownloadFinished(m, url, first);
      FinishedUpdate(m, url, first);
      FinishedUpdate(m1, url, second);
      FinishedUpdate(m, url, second);
      assert m1.downloads[url].(status := FinalStatus(second)) == info.(status := FinalStatus(second));
      assert m.downloads[url := info.(status := FinalStatus(first))][url := info.(status := FinalStatus(second))]
          == m.downloads[url := info.(status := FinalStatus(second))];
    }
  }

  lemma FinishedUpdate(m: Manager, url: string, success: bool)
    requires url in m.downloads
    ensures DownloadFinished(m, url, success)
            == m.(downloads := m.downloads[url := m.downloads[url].(status := FinalStatus(success))])
  {
    var info := m.downloads[url].(status := FinalStatus(success));
    assert info.(status := FinalStatus(success)) == info;
    assert m.downloads[url := info][url := info] == m.downloads[url := info];
  }

  /** `download_finished` does not check for cancellation: a signal that arrives after a cancel overwrites it. */
  lemma FinishedOverwritesCancel(m: Manager, url: string, success: bool)
    requires url in m.downloads && m.downloads[url].worker.Some?
    ensures CancelDownload(m, url).downloads[url].status == Cancelled
    ensures DownloadFinished(CancelDownload(m, url), url, success).downloads[url].status
            == (if success then Completed else Error)
  {
  }

  /** `cancel_download` does not check for a finished download: it turns a completed entry into a cancelled one. */
  lemma CancelOverwritesFinished(m: Manager, url: string, success: bool)
    requires url in m.downloads && m.downloads[url].worker.Some?
    ensures CancelDownload(DownloadFinished(m, url, success), url).downloads[url].status == Cancelled
  {
  }

  /** Adding URLs that are all in the table already, whatever their status, changes nothing. */
  lemma ReAddIsNoOp(m: Manager, text: string)
    requires forall u :: u in UrlList.ParseUrls(text) ==> u in m.downloads
    ensures AddDownload(m, text) == m
  {
    var urls := UrlList.ParseUrls(text);
    UrlSetOfTokens(urls);
    AddKnownUrls(m, urls);
  }

  lemma {:induction false} AddKnownUrls(m: Manager, urls: seq<string>)
    requires UrlSet(urls) <= m.downloads.Keys
    ensures AddUrls(m, urls) == m
    decreases |urls|
  {
    if |urls| > 0 {
      assert AddOne(m, urls[0]) == m;
      AddKnownUrls(m, urls[1..]);
    }
  }

  /** What the GUI does with the outcome of one `run`: apply its `finished_signal`, if it emitted one. */
  function Deliver(m: Manager, url: string, result: Fallback.RunResult): (r: Manager)
    ensures r.rows == m.rows
    ensures r.downloads.Keys == m.downloads.Keys
    ensures forall k :: k in m.downloads && k != url ==> r.downloads[k] == m.downloads[k]
    ensures result.signal.None? ==> r == m
    ensures result.signal.Some? && url in m.downloads ==>
              && r.downloads[url].status == (if result.signal.value then Completed else Error)
              && r.downloads[url].(status := m.downloads[url].status) == m.downloads[url]
  {
    if result.signal.Some? then DownloadFinished(m, url, result.signal.value) else m
  }

  /** A cancel raised before yt-dlp returns wins: the entry stays cancelled once the run is over. */
  lemma EarlyCancelStaysCancelled(m: Manager, url: string, o: Fallback.Outcomes, cancel: Option<nat>)
    requires url in m.downloads && m.downloads[url].worker.Some?
    requires Fallback.CancelSeen(cancel, Fallback.YtDlp)
    ensures Deliver(CancelDownload(m, url), url, Fallback.Run(url, o, cancel)).downloads[url].status == Cancelled
  {
    Fallback.CancelBeforeFirstCheckSilences(url, o, cancel);
  }
}

=== FILE: text.dfy ===
/**
 Python string primitives used by the downloader: `str.strip()`, `str.split(sep)`
 with a one-character separator, and `str.lower()` as far as the suffix test of
 `is_direct_link` can observe it.
 */
module Text {

  /** The characters Python's `str.isspace()` accepts, which `str.strip()` removes. */
  predicate IsSpace(c: char) {
    || ('\t' <= c <= '\r')
    || ('\U{1C}' <= c <= '\U{1F}')
    || c == ' '
    || c == '\U{85}'
    || c == '\U{A0}'
    || c == '\U{1680}'
    || ('\U{2000}' <= c <= '\U{200A}')
    || c == '\U{2028}'
    || c == '\U{2029}'
    || c == '\U{202F}'
    || c == '\U{205F}'
    || c == '\U{3000}'
  }

  ghost predicate AllSpace(s: string) {
    forall i :: 0 <= i < |s| ==> IsSpace(s[i])
  }

  /** No whitespace at either end: what `strip()` leaves behind. */
  predicate Stripped(s: string) {
    s == [] || (!IsSpace(s[0]) && !IsSpace(s[|s| - 1]))
  }

  /** Number of leading whitespace characters. */
  function LeadingSpace(s: string): (n: nat)
    ensures n <= |s|
    ensures AllSpace(s[..n])
    ensures n < |s| ==> !IsSpace(s[n])
  {
    if |s| > 0 && IsSpace(s[0]) then 1 + LeadingSpace(s[1..]) else 0
  }

  /** `s.lstrip()` */
  function TrimStart(s: string): (r: string)
    ensures r == [] || !IsSpace(r[0])
  {
    s[LeadingSpace(s)..]
  }

  /** `s.rstrip()` */
  function TrimEnd(s: string): (r: string)
    ensures |r| <= |s| && r == s[..|r|]
    ensures AllSpace(s[|r|..])
    ensures r == [] || !IsSpace(r[|r| - 1])
  {
    if |s| > 0 && IsSpace(s[|s| - 1]) then
      var r := TrimEnd(s[..|s| - 1]);
      TrimEndStep(s, r);
      r
    else s
  }

  /** Dropping one trailing whitespace character keeps a prefix with a whitespace-only tail. */
  lemma TrimEndStep(s: string, r: string)
    requires |s| > 0 && IsSpace(s[|s| - 1])
    requires |r| <= |s| - 1 && r == s[..|s| - 1][..|r|] && AllSpace(s[..|s| - 1][|r|..])
    ensures |r| <= |s| && r == s[..|r|] && AllSpace(s[|r|..])
  {
    assert s[|r|..] == s[..|s| - 1][|r|..] + [s[|s| - 1]];
  }

  /** `s.strip()`: the unique slice of `s` with whitespace-only margins and no whitespace at its ends. */
  function Strip(s: string): (r: string)
    ensures Stripped(r)
    ensures LeadingSpace(s) + |r| <= |s|
    ensures r == s[LeadingSpace(s)..LeadingSpace(s) + |r|]
    ensures AllSpace(s[..LeadingSpace(s)]) && AllSpace(s[LeadingSpace(s) + |r|..])
  {
    TrimBoth(s);
    TrimEnd(TrimStart(s))
  }

  /** Trimming the end of the left-trimmed string keeps its first character and leaves a whitespace-only tail. */
  lemma TrimBoth(s: string)
    ensures var n, r := LeadingSpace(s), TrimEnd(TrimStart(s));
      && Stripped(r)
      && n + |r| <= |s|
      && r == s[n..n + |r|]
      && AllSpace(s[n + |r|..])
  {
    var t := TrimStart(s);
    assert t == s[LeadingSpace(s)..];
    TrimShape(s, LeadingSpace(s), t, TrimEnd(t));
  }

  /** A prefix `r` of the suffix `t == s[n..]` that starts and ends with non-whitespace and leaves only whitespace behind. */
  lemma TrimShape(s: string, n: nat, t: string, r: string)
    requires n <= |s| && t == s[n..]
    requires |r| <= |t| && r == t[..|r|] && AllSpace(t[|r|..])
    requires t == [] || !IsSpace(t[0])
    requires r == [] || !IsSpace(r[|r| - 1])
    ensures Stripped(r) && n + |r| <= |s| && r == s[n..n + |r|] && AllSpace(s[n + |r|..])
  {
    if r != [] {
      assert r[0] == t[0];
    }
    SliceOfSuffix(s, n, |r|);
  }

  lemma SliceOfSuffix(s: string, n: nat, k: nat)
    requires n + k <= |s|
    ensures s[n..][..k] == s[n..n + k]
    ensures s[n..][k..] == s[n + k..]
  {
  }

  /** Stripping is idempotent: an already stripped string is left alone. */
  lemma StripStripped(s: string)
    requires Stripped(s)
    ensures Strip(s) == s
  {
    assert LeadingSpace(s) == 0;
    assert TrimEnd(s) == s;
  }

  /** A leading whitespace character does not change what a string strips to. */
  lemma StripLeadingSpace(w: char, s: string)
    requires IsSpace(w)
    ensures Strip([w] + s) == Strip(s)
  {
    assert ([w] + s)[1..] == s;
    assert TrimStart([w] + s) == TrimStart(s);
  }

  /** `strip()` is determined by its shape: whitespace margins around a stripped core give back the core. */
  lemma StripUnique(a: string, r: string, b: string)
    requires AllSpace(a) && Stripped(r) && AllSpace(b)
    ensures Strip(a + r + b) == r
  {
    var s := a + r + b;
    if r != [] {
      assert s[|a|] == r[0];
      assert LeadingSpace(s) == |a|;
      assert s[|a| + |r| - 1] == r[|r| - 1];
      assert |Strip(s)| == |r|;
      assert s[|a|..|a| + |r|] == r;
    }
  }

  /** Every string is its stripped core between two whitespace-only margins. */
  lemma StripMargins(s: string) returns (a: string, b: string)
    ensures AllSpace(a) && AllSpace(b)
    ensures s == a + (Strip(s) + b)
  {
    var n := LeadingSpace(s);
    var r := Strip(s);
    a, b := s[..n], s[n + |r|..];
    assert s == a + (r + b);
  }

  /** A trailing whitespace character does not change what a string strips to. */
  lemma StripTrailingSpace(s: string, c: char)
    requires IsSpace(c)
    ensures Strip(s + [c]) == Strip(s)
  {
    var a, b := StripMargins(s);
    AppendRegroup(a, Strip(s), b, [c]);
    StripUnique(a, Strip(s), b + [c]);
  }

  lemma AppendRegroup(a: string, x: string, b: string, c: string)
    ensures a + (x + b) + c == a + x + (b + c)
  {
  }

  /** `s.split(sep)`: the pieces between occurrences of `sep`; there is always at least one. */
  function Split(s: string, sep: char): (pieces: seq<string>)
    ensures |pieces| >= 1
    ensures forall i :: 0 <= i < |pieces| ==> sep !in pieces[i]
    ensures Join(pieces, sep) == s
    decreases |s|
  {
    if |s| == 0 then [[]]
    else
      var rest := Split(s[1..], sep);
      if s[0] == sep then
        [[]] + rest
      else
        JoinConsFirst(s[0], rest, sep);
        [[s[0]] + rest[0]] + rest[1..]
  }

  /** `sep.join(pieces)` */
  function Join(pieces: seq<string>, sep: char): (s: string)
    decreases |pieces|
  {
    if |pieces| == 0 then []
    else if |pieces| == 1 then pieces[0]
    else pieces[0] + [sep] + Join(pieces[1..], sep)
  }

  lemma JoinConsFirst(c: char, pieces: seq<string>, sep: char)
    requires |pieces| >= 1
    ensures Join([[c] + pieces[0]] + pieces[1..], sep) == [c] + Join(pieces, sep)
  {
    var p := [[c] + pieces[0]] + pieces[1..];
    assert p[1..] == pieces[1..];
  }

  /** Joining pieces that avoid a character never introduces it, unless it is the separator. */
  lemma {:induction false} JoinAvoids(pieces: seq<string>, sep: char, c: char)
    requires c != sep
    requires forall i :: 0 <= i < |pieces| ==> c !in pieces[i]
    ensures c !in Join(pieces, sep)
    decreases |pieces|
  {
    if |pieces| > 1 {
      JoinAvoids(pieces[1..], sep, c);
    }
  }

  /** A string without the separator splits into itself alone. */
  lemma {:induction false} SplitWithoutSep(s: string, sep: char)
    requires sep !in s
    ensures Split(s, sep) == [s]
    decreases |s|
  {
    if |s| > 0 {
      SplitWithoutSep(s[1..], sep);
      assert [s[0]] + s[1..] == s;
    }
  }

  /** Splitting at the first separator. */
  lemma {:induction false} SplitAtSep(a: string, b: string, sep: char)
    requires sep !in a
    ensures Split(a + [sep] + b, sep) == [a] + Split(b, sep)
    decreases |a|
  {
    var s := a + [sep] + b;
    if |a| == 0 {
      assert s[1..] == b;
    } else {
      assert s[1..] == a[1..] + [sep] + b;
      SplitAtSep(a[1..], b, sep);
      assert [a[0]] + a[1..] == a;
    }
  }

  /** Round trip: splitting a join recovers the pieces when none contains the separator. */
  lemma {:induction false} SplitJoin(pieces: seq<string>, sep: char)
    requires |pieces| >= 1
    requires forall i :: 0 <= i < |pieces| ==> sep !in pieces[i]
    ensures Split(Join(pieces, sep), sep) == pieces
    decreases |pieces|
  {
    if |pieces| == 1 {
      SplitWithoutSep(pieces[0], sep);
    } else {
      SplitJoin(pieces[1..], sep);
      SplitAtSep(pieces[0], Join(pieces[1..], sep), sep);
      assert [pieces[0]] + pieces[1..] == pieces;
    }
  }

  /** Lower-casing of one character as far as Python's `str.lower()` can produce an ASCII letter. */
  function LowerChar(c: char): char
  {
    if 'A' <= c <= 'Z' then (c as int + 32) as char
    else if c == '\U{212A}' then 'k'
    else c
  }

  /** `s.lower()` */
  function Lower(s: string): string
  {
    seq(|s|, i requires 0 <= i < |s| => LowerChar(s[i]))
  }

  /** No character that `LowerChar` changes. */
  predicate NoUpper(s: string) {
    forall i :: 0 <= i < |s| ==> !('A' <= s[i] <= 'Z') && s[i] != '\U{212A}'
  }

  /** Lower-casing leaves nothing to lower-case: `s.lower().lower() == s.lower()`. */
  lemma LowerIdempotent(s: string)
    ensures NoUpper(Lower(s))
    ensures Lower(Lower(s)) == Lower(s)
  {
    var l := Lower(s);
    forall i | 0 <= i < |l|
      ensures !('A' <= l[i] <= 'Z') && l[i] != '\U{212A}'
    {
      LowerCharLower(s[i]);
    }
    LowerKeeps(l);
  }

  lemma LowerCharLower(c: char)
    ensures !('A' <= LowerChar(c) <= 'Z') && LowerChar(c) != '\U{212A}'
  {
  }

  /** `lower()` changes exactly the characters it lower-cases: text without them is left alone, and text with one is not. */
  lemma LowerKeeps(s: string)
    ensures Lower(s) == s <==> NoUpper(s)
  {
    if !NoUpper(s) {
      var i :| 0 <= i < |s| && !(!('A' <= s[i] <= 'Z') && s[i] != '\U{212A}');
      assert Lower(s)[i] != s[i];
    }
  }

  /** Lower-casing works character by character, so it distributes over concatenation. */
  lemma LowerAppend(a: string, b: string)
    ensures Lower(a + b) == Lower(a) + Lower(b)
  {
  }

  /** `s.endswith(suffix)` */
  predicate EndsWith(s: string, suffix: string) {
    |suffix| <= |s| && s[|s| - |suffix|..] == suffix
  }
}

=== FILE: transfer.dfy ===
/**
 The streaming loop of `download_with_requests` (VD.py:75-106). The response body is
 the sequence of chunk lengths `iter_content` yields, and the `is_cancelled` flag is
 the first loop iteration whose check reads it raised.
 */
module Transfer {
  import opened Options

  /** One `progress_signal` of the loop: the bytes received so far against `content-length`. */
  datatype ProgressEvent = ProgressEvent(downloaded: nat, totalSize: int) {

    /** `(downloaded / total_size) * 100` */
    function Percent(): real
      requires totalSize != 0
    {
      (downloaded as real) / (totalSize as real) * 100.0
    }
  }

  function Sum(chunks: seq<nat>): nat
    decreases |chunks|
  {
    if |chunks| == 0 then 0 else Sum(chunks[..|chunks| - 1]) + chunks[|chunks| - 1]
  }

  function CountNonEmpty(chunks: seq<nat>): nat
    decreases |chunks|
  {
    if |chunks| == 0 then 0
    else CountNonEmpty(chunks[..|chunks| - 1]) + (if chunks[|chunks| - 1] > 0 then 1 else 0)
  }

  /** The events the loop emits for the chunks it processes: one per non-empty chunk, carrying the running total. */
  function Emitted(chunks: seq<nat>, totalSize: int): (events: seq<ProgressEvent>)
    decreases |chunks|
  {
    if |chunks| == 0 then []
    else
      Emitted(chunks[..|chunks| - 1], totalSize)
      + (if chunks[|chunks| - 1] > 0 then [ProgressEvent(Sum(chunks), totalSize)] else [])
  }

  predicate StrictlyIncreasing(events: seq<ProgressEvent>) {
    forall i, j :: 0 <= i < j < |events| ==> events[i].downloaded < events[j].downloaded
  }

  /** How many chunks the loop processes before its cancel check fires, if it fires at all. */
  function Processed(chunks: seq<nat>, cancelAt: Option<nat>): (n: nat)
    ensures n <= |chunks|
  {
    if cancelAt.Some? && cancelAt.value < |chunks| then cancelAt.value else |chunks|
  }

  /** The emitted events count the non-empty chunks, rise strictly, and end at the bytes received. */
  lemma {:induction false} EmittedShape(chunks: seq<nat>, totalSize: int)
    ensures |Emitted(chunks, totalSize)| == CountNonEmpty(chunks)
    ensures StrictlyIncreasing(Emitted(chunks, totalSize))
    ensures forall i :: 0 <= i < |Emitted(chunks, totalSize)| ==>
              Emitted(chunks, totalSize)[i].totalSize == totalSize
              && 0 < Emitted(chunks, totalSize)[i].downloaded <= Sum(chunks)
    ensures |Emitted(chunks, totalSize)| > 0 ==>
              Emitted(chunks, totalSize)[|Emitted(chunks, totalSize)| - 1].downloaded == Sum(chunks)
    decreases |chunks|
  {
    if |chunks| > 0 {
      EmittedShape(chunks[..|chunks| - 1], totalSize);
    }
  }

  /**
   The `total_size != 0` branch of `download_with_requests`: write and report every
   non-empty chunk until the cancel check fires. The `total_size == 0` branch writes
   the whole body at once, reports nothing and succeeds.
   */
  method Stream(totalSize: int, chunks: seq<nat>, cancelAt: Option<nat>) returns (events: seq<ProgressEvent>, ok: bool)
    ensures totalSize == 0 ==> events == [] && ok
    ensures totalSize != 0 ==> events == Emitted(chunks[..Processed(chunks, cancelAt)], totalSize)
    ensures totalSize != 0 ==> (ok <==> !(cancelAt.Some? && cancelAt.value < |chunks|))
    ensures StrictlyIncreasing(events)
    ensures forall i :: 0 <= i < |events| ==> events[i].totalSize == totalSize
  {
    if totalSize == 0 {
      return [], true;
    }
    events := [];
    var downloaded := 0;
    var i := 0;
    while i < |chunks|
      invariant i <= |chunks|
      invariant !(cancelAt.Some? && cancelAt.value < i)
      invariant downloaded == Sum(chunks[..i])
      invariant events == Emitted(chunks[..i], totalSize)
    {
      if cancelAt.Some? && cancelAt.value <= i {
        assert Processed(chunks, cancelAt) == i;
        EmittedShape(chunks[..i], totalSize);
        return events, false;
      }
      assert chunks[..i + 1][..i] == chunks[..i];
      if chunks[i] > 0 {
        downloaded := downloaded + chunks[i];
        events := events + [ProgressEvent(downloaded, totalSize)];
      }
      i := i + 1;
    }
    assert chunks[..i] == chunks;
    EmittedShape(chunks, totalSize);
    return events, true;
  }

  /** With a positive `content-length`, the reported percentages rise strictly. */
  lemma PercentIncreasing(events: seq<ProgressEvent>, totalSize: int)
    requires totalSize > 0
    requires StrictlyIncreasing(events)
    requires forall i :: 0 <= i < |events| ==> events[i].totalSize == totalSize
    ensures forall i, j :: 0 <= i < j < |events| ==> events[i].Percent() < events[j].Percent()
  {
    forall i, j | 0 <= i < j < |events|
      ensures events[i].Percent() < events[j].Percent()
    {
      var t := totalSize as real;
      var a, b := events[i].downloaded as real, events[j].downloaded as real;
      assert b / t - a / t == (b - a) / t;
      assert (b - a) / t > 0.0;
    }
  }

  /** When the body is no longer than `content-length`, no percentage exceeds 100. */
  lemma {:induction false} PercentAtMostHundred(chunks: seq<nat>, totalSize: int)
    requires totalSize > 0
    requires Sum(chunks) <= totalSize
    ensures forall e :: e in Emitted(chunks, totalSize) ==> e.totalSize == totalSize && 0.0 < e.Percent() <= 100.0
  {
    EmittedShape(chunks, totalSize);
    forall e | e in Emitted(chunks, totalSize)
      ensures e.totalSize == totalSize && 0.0 < e.Percent() <= 100.0
    {
      var t := totalSize as real;
      var d := e.downloaded as real;
      RatioAtMostOne(d, t);
    }
  }

  lemma RatioAtMostOne(d: real, t: real)
    requires 0.0 < d <= t
    ensures 0.0 < d / t <= 1.0
  {
    assert t / t == 1.0;
    assert t / t - d / t == (t - d) / t;
  }

  /** A body of `total` bytes read in chunks of `size`, as `iter_content(chunk_size=size)` yields it. */
  function FixedChunks(total: nat, size: nat): (chunks: seq<nat>)
    requires size > 0
    ensures Sum(chunks) == total
    ensures forall i :: 0 <= i < |chunks| ==> 0 < chunks[i] <= size
    ensures |chunks| * size >= total
    decreases total
  {
    if total == 0 then []
    else if total <= size then [total]
    else
      var rest := FixedChunks(total - size, size);
      SumCons(size, rest);
      [size] + rest
  }

  lemma {:induction false} SumCons(x: nat, chunks: seq<nat>)
    ensures Sum([x] + chunks) == x + Sum(chunks)
    decreases |chunks|
  {
    if |chunks| > 0 {
      assert ([x] + chunks)[..|chunks|] == [x] + chunks[..|chunks| - 1];
      SumCons(x, chunks[..|chunks| - 1]);
    }
  }

  lemma {:induction false} CountAllNonEmpty(chunks: seq<nat>)
    requires forall i :: 0 <= i < |chunks| ==> chunks[i] > 0
    ensures CountNonEmpty(chunks) == |chunks|
    decreases |chunks|
  {
    if |chunks| > 0 {
      CountAllNonEmpty(chunks[..|chunks| - 1]);
    }
  }

  /**
   A body of `total` bytes read in chunks of at most `size` bytes, none empty, as
   `iter_content(chunk_size=size)` may yield them, never cancelled: one event per
   chunk, at least `total / size` of them, the last at exactly 100 percent.
   */
  lemma FullBodyEvents(chunks: seq<nat>, total: nat, size: nat)
    requires size > 0 && total > 0 && Sum(chunks) == total
    requires forall i :: 0 <= i < |chunks| ==> 0 < chunks[i] <= size
    ensures var events := Emitted(chunks, total);
      && |events| == |chunks|
      && |events| * size >= total
      && events[|events| - 1].totalSize == total
      && events[|events| - 1].Percent() == 100.0
  {
    CountAllNonEmpty(chunks);
    EmittedShape(chunks, total);
    SumAtMost(chunks, size);
    var events := Emitted(chunks, total);
    WholePercent(events[|events| - 1]);
  }

  /** No chunk longer than `size` means no more than `size` bytes per chunk in total. */
  lemma {:induction false} SumAtMost(chunks: seq<nat>, size: nat)
    requires forall i :: 0 <= i < |chunks| ==> chunks[i] <= size
    ensures Sum(chunks) <= |chunks| * size
    decreases |chunks|
  {
    if |chunks| > 0 {
      SumAtMost(chunks[..|chunks| - 1], size);
    }
  }

  /** The event that reports the whole body reports 100 percent. */
  lemma WholePercent(e: ProgressEvent)
    requires e.totalSize > 0 && e.downloaded == e.totalSize
    ensures e.Percent() == 100.0
  {
    var t := e.totalSize as real;
    assert t / t == 1.0;
  }

  /** A 1,000,000-byte body in 8,192-byte chunks, never cancelled: at least 120 progress events, the last at 100 percent. */
  lemma MegabyteInEightKiBChunks()
    ensures var events := Emitted(FixedChunks(1000000, 8192), 1000000);
      && |events| >= 120
      && events[|events| - 1].Percent() == 100.0
  {
    FullBodyEvents(FixedChunks(1000000, 8192), 1000000, 8192);
  }
}

=== FILE: url_list.dfy ===
/**
 The text-to-URL-list step of `add_download` (VD.py:485-489): the input is
 stripped, split on newlines, every line split on commas, every field stripped,
 and empty fields dropped.
 */
module UrlList {
  import opened Text

  /** What `add_download` accepts as one URL: non-empty, stripped, and free of both separators. */
  predicate IsUrlToken(t: string) {
    t != [] && Stripped(t) && ',' !in t && '\n' !in t
  }

  /** `[f.strip() for f in fields if f.strip()]` */
  function FieldTokens(fields: seq<string>): (tokens: seq<string>)
    ensures |tokens| <= |fields|
    ensures forall i :: 0 <= i < |tokens| ==> tokens[i] != [] && Stripped(tokens[i])
    decreases |fields|
  {
    if |fields| == 0 then []
    else
      var t := Strip(fields[0]);
      (if t != [] then [t] else []) + FieldTokens(fields[1..])
  }

  /** The tokens of every line, in line order. */
  function LineTokens(lines: seq<string>): seq<string>
    decreases |lines|
  {
    if |lines| == 0 then [] else FieldTokens(Split(lines[0], ',')) + LineTokens(lines[1..])
  }

  /** The URL list `add_download` builds from the raw input text. */
  function ParseUrls(text: string): (urls: seq<string>)
    ensures forall i :: 0 <= i < |urls| ==> IsUrlToken(urls[i])
  {
    var lines := Split(Strip(text), '\n');
    LineTokensValid(lines);
    LineTokens(lines)
  }

  lemma StripAvoids(s: string, c: char)
    requires c !in s
    ensures c !in Strip(s)
  {
    var r := Strip(s);
    var n := LeadingSpace(s);
    forall i | 0 <= i < |r|
      ensures r[i] in s
    {
      assert r[i] == s[n + i];
    }
  }

  /** Stripping fields never introduces a character they lack. */
  lemma {:induction false} FieldTokensAvoid(fields: seq<string>, c: char)
    requires forall j :: 0 <= j < |fields| ==> c !in fields[j]
    ensures forall i :: 0 <= i < |FieldTokens(fields)| ==> c !in FieldTokens(fields)[i]
    decreases |fields|
  {
    if |fields| > 0 {
      StripAvoids(fields[0], c);
      FieldTokensAvoid(fields[1..], c);
    }
  }

  /** Lines free of newlines yield only valid URLs. */
  lemma {:induction false} LineTokensValid(lines: seq<string>)
    requires forall j :: 0 <= j < |lines| ==> '\n' !in lines[j]
    ensures forall i :: 0 <= i < |LineTokens(lines)| ==> IsUrlToken(LineTokens(lines)[i])
    decreases |lines|
  {
    if |lines| > 0 {
      var fields := Split(lines[0], ',');
      SplitAvoids(lines[0], ',', '\n');
      FieldTokensAvoid(fields, ',');
      FieldTokensAvoid(fields, '\n');
      LineTokensValid(lines[1..]);
    }
  }

  lemma {:induction false} SplitAvoids(s: string, sep: char, c: char)
    requires c !in s
    ensures forall i :: 0 <= i < |Split(s, sep)| ==> c !in Split(s, sep)[i]
    decreases |s|
  {
    if |s| > 0 {
      SplitAvoids(s[1..], sep, c);
      var rest := Split(s[1..], sep);
      if s[0] != sep {
        assert c !in [s[0]] + rest[0];
      }
    }
  }

  /** Fields that are already valid URLs pass through unchanged. */
  lemma {:induction false} FieldTokensOfTokens(urls: seq<string>)
    requires forall i :: 0 <= i < |urls| ==> IsUrlToken(urls[i])
    ensures FieldTokens(urls) == urls
    decreases |urls|
  {
    if |urls| > 0 {
      StripStripped(urls[0]);
      FieldTokensOfTokens(urls[1..]);
      assert [urls[0]] + urls[1..] == urls;
    }
  }

  /** The first and last character of a join are those of the first and last piece. */
  lemma {:induction false} JoinEnds(pieces: seq<string>, sep: char)
    requires |pieces| >= 1
    requires forall i :: 0 <= i < |pieces| ==> pieces[i] != []
    ensures Join(pieces, sep) != []
    ensures Join(pieces, sep)[0] == pieces[0][0]
    ensures Join(pieces, sep)[|Join(pieces, sep)| - 1] == pieces[|pieces| - 1][|pieces[|pieces| - 1]| - 1]
    decreases |pieces|
  {
    if |pieces| > 1 {
      JoinEnds(pieces[1..], sep);
    }
  }

  /** Round trip: URLs rendered as one comma-separated line are parsed back, in order. */
  lemma ParseCommaJoined(urls: seq<string>)
    requires forall i :: 0 <= i < |urls| ==> IsUrlToken(urls[i])
    ensures ParseUrls(Join(urls, ',')) == urls
  {
    if |urls| == 0 {
      ParseEmpty();
    } else {
      ParseCommaLine(urls);
    }
  }

  /** Empty input yields no URL. */
  lemma ParseEmpty()
    ensures ParseUrls([]) == []
  {
    assert Split(Strip([]), '\n') == [[]];
    assert Split([], ',') == [[]];
  }

  lemma ParseCommaLine(urls: seq<string>)
    requires |urls| > 0
    requires forall i :: 0 <= i < |urls| ==> IsUrlToken(urls[i])
    ensures ParseUrls(Join(urls, ',')) == urls
  {
    var text := Join(urls, ',');
    JoinAvoids(urls, ',', '\n');
    ParseOneLine(text);
    SplitJoin(urls, ',');
    FieldTokensOfTokens(urls);
  }

  /** An input without newlines is one line, cut at its commas, whatever whitespace surrounds it. */
  lemma ParseOneLine(text: string)
    requires '\n' !in text
    ensures ParseUrls(text) == FieldTokens(Split(text, ','))
  {
    OuterStripRedundant(text);
    SplitWithoutSep(text, '\n');
    assert LineTokens([text]) == FieldTokens(Split(text, ',')) + LineTokens([]);
  }

  /** Round trip: URLs rendered one per line are parsed back, in order. */
  lemma {:induction false} ParseLineJoined(urls: seq<string>)
    requires forall i :: 0 <= i < |urls| ==> IsUrlToken(urls[i])
    ensures ParseUrls(Join(urls, '\n')) == urls
  {
    var text := Join(urls, '\n');
    if |urls| == 0 {
      ParseEmpty();
    } else {
      JoinEnds(urls, '\n');
      StripStripped(text);
      SplitJoin(urls, '\n');
      LinesOfTokens(urls);
    }
  }

  /** Lines that are single valid URLs each contribute exactly themselves. */
  lemma {:induction false} LinesOfTokens(urls: seq<string>)
    requires forall i :: 0 <= i < |urls| ==> IsUrlToken(urls[i])
    ensures LineTokens(urls) == urls
    decreases |urls|
  {
    if |urls| > 0 {
      SplitWithoutSep(urls[0], ',');
      StripStripped(urls[0]);
      assert FieldTokens([urls[0]]) == [urls[0]] + FieldTokens([]);
      LinesOfTokens(urls[1..]);
      assert [urls[0]] + urls[1..] == urls;
    }
  }

  /** Two lines of input contribute their tokens one after the other, whatever whitespace surrounds them. */
  lemma ParseTwoLines(line1: string, line2: string)
    requires '\n' !in line1 && '\n' !in line2
    ensures ParseUrls(line1 + ['\n'] + line2) == FieldTokens(Split(line1, ',')) + FieldTokens(Split(line2, ','))
  {
    OuterStripRedundant(line1 + ['\n'] + line2);
    SplitPair(line1, line2, '\n');
    TwoLineTokens(line1, line2);
  }

  lemma TwoLineTokens(a: string, b: string)
    ensures LineTokens([a, b]) == FieldTokens(Split(a, ',')) + FieldTokens(Split(b, ','))
  {
    assert [a, b][1..] == [b];
    assert LineTokens([b]) == FieldTokens(Split(b, ',')) + LineTokens([]);
  }

  lemma SplitPair(a: string, b: string, sep: char)
    requires sep !in a && sep !in b
    ensures Split(a + [sep] + b, sep) == [a, b]
  {
    SplitAtSep(a, b, sep);
    SplitWithoutSep(b, sep);
  }

  /** A field of one URL, possibly after a space, yields that URL. */
  lemma FieldOfUrl(pad: string, url: string)
    requires AllSpace(pad) && IsUrlToken(url)
    ensures Strip(pad + url) == url
    decreases |pad|
  {
    if |pad| == 0 {
      assert pad + url == url;
      StripStripped(url);
    } else {
      assert pad + url == [pad[0]] + (pad[1..] + url);
      StripLeadingSpace(pad[0], pad[1..] + url);
      FieldOfUrl(pad[1..], url);
    }
  }

  /** A line `a,` whitespace `b` yields the two URLs. */
  lemma CommaLine(a: string, pad: string, b: string)
    requires IsUrlToken(a) && IsUrlToken(b) && AllSpace(pad)
    ensures FieldTokens(Split(a + [','] + (pad + b), ',')) == [a, b]
  {
    NoCommaInSpace(pad, b);
    SplitPair(a, pad + b, ',');
    StripStripped(a);
    FieldOfUrl(pad, b);
    FieldTokensSingle(a);
    FieldTokensSingle(pad + b);
    FieldTokensPair(a, pad + b);
  }

  lemma FieldTokensSingle(x: string)
    ensures FieldTokens([x]) == if Strip(x) != [] then [Strip(x)] else []
  {
    assert [x][1..] == [];
  }

  lemma NoCommaInSpace(pad: string, b: string)
    requires AllSpace(pad) && ',' !in b
    ensures ',' !in pad + b
  {
    assert !IsSpace(',');
  }

  /** The tokens of two fields are those of the first followed by those of the second. */
  lemma FieldTokensPair(x: string, y: string)
    ensures FieldTokens([x, y]) == FieldTokens([x]) + FieldTokens([y])
  {
    FieldTokensAppend([x], [y]);
    assert [x] + [y] == [x, y];
  }

  /** A line holding one URL yields it. */
  lemma SingleUrlLine(c: string)
    requires IsUrlToken(c)
    ensures FieldTokens(Split(c, ',')) == [c]
  {
    SplitWithoutSep(c, ',');
    FieldOfUrl([], c);
    assert FieldTokens([c]) == [c] + FieldTokens([]);
  }

  /** Commas and newlines both separate URLs, and whitespace after a comma is dropped. */
  lemma CommaThenNewline(a: string, pad: string, b: string, c: string)
    requires IsUrlToken(a) && IsUrlToken(b) && IsUrlToken(c)
    requires AllSpace(pad) && '\n' !in pad
    ensures ParseUrls(a + [','] + pad + b + ['\n'] + c) == [a, b, c]
  {
    var line := a + [','] + (pad + b);
    assert a + [','] + pad + b + ['\n'] + c == line + ['\n'] + c;
    assert Stripped(line + ['\n'] + c);
    ParseTwoLines(line, c);
    CommaLine(a, pad, b);
    SingleUrlLine(c);
  }

  /** The two characters that separate URLs in the input. */
  predicate IsSeparator(c: char) {
    c == ',' || c == '\n'
  }

  /** The fields of the text when it is cut at every comma and every newline. */
  function Fields(s: string): (fields: seq<string>)
    ensures |fields| >= 1
    ensures forall i :: 0 <= i < |fields| ==> ',' !in fields[i] && '\n' !in fields[i]
    decreases |s|
  {
    if |s| == 0 then [[]]
    else
      var rest := Fields(s[1..]);
      if IsSeparator(s[0]) then [[]] + rest
      else [[s[0]] + rest[0]] + rest[1..]
  }

  /** The comma-separated fields of every line, one line after another. */
  function CommaFields(lines: seq<string>): seq<string>
    decreases |lines|
  {
    if |lines| == 0 then [] else Split(lines[0], ',') + CommaFields(lines[1..])
  }

  lemma {:induction false} FieldTokensAppend(a: seq<string>, b: seq<string>)
    ensures FieldTokens(a + b) == FieldTokens(a) + FieldTokens(b)
    decreases |a|
  {
    if |a| > 0 {
      assert (a + b)[1..] == a[1..] + b;
      FieldTokensAppend(a[1..], b);
    } else {
      assert a + b == b;
    }
  }

  /** Taking the tokens line by line is taking the tokens of all the lines' fields together. */
  lemma {:induction false} LineTokensFlatten(lines: seq<string>)
    ensures LineTokens(lines) == FieldTokens(CommaFields(lines))
    decreases |lines|
  {
    if |lines| > 0 {
      LineTokensFlatten(lines[1..]);
      FieldTokensAppend(Split(lines[0], ','), CommaFields(lines[1..]));
    }
  }

  /** Cutting at newlines, then every line at commas, cuts at both. */
  lemma {:induction false} FieldsByLines(s: string)
    ensures Fields(s) == CommaFields(Split(s, '\n'))
    decreases |s|
  {
    if |s| > 0 {
      FieldsByLines(s[1..]);
      if s[0] == '\n' {
        NewlineStep(s);
      } else {
        OtherCharStep(s);
      }
    }
  }

  lemma NewlineStep(s: string)
    requires |s| > 0 && s[0] == '\n'
    requires Fields(s[1..]) == CommaFields(Split(s[1..], '\n'))
    ensures Fields(s) == CommaFields(Split(s, '\n'))
  {
    var lines := Split(s[1..], '\n');
    assert Split(s, '\n') == [[]] + lines;
    assert ([[]] + lines)[1..] == lines;
    assert CommaFields([[]] + lines) == Split([], ',') + CommaFields(lines);
  }

  lemma OtherCharStep(s: string)
    requires |s| > 0 && s[0] != '\n'
    requires Fields(s[1..]) == CommaFields(Split(s[1..], '\n'))
    ensures Fields(s) == CommaFields(Split(s, '\n'))
  {
    var c, x := s[0], s[1..];
    var lines := Split(x, '\n');
    SplitFirstPiece(s, '\n');
    CommaFieldsCons([c] + lines[0], lines[1..]);
    SplitCons(c, lines[0], ',');
    FieldsFirst(s);
    FirstFieldAlgebra(c, Split(lines[0], ','), CommaFields(lines[1..]));
  }

  /** How prepending a character to the first of the fields distributes over appending later fields. */
  lemma FirstFieldAlgebra(c: char, p: seq<string>, later: seq<string>)
    requires |p| >= 1
    ensures [[]] + p + later == [[]] + (p + later)
    ensures [[c] + p[0]] + p[1..] + later == [[c] + (p + later)[0]] + (p + later)[1..]
  {
    assert (p + later)[1..] == p[1..] + later;
  }

  /** One unfolding of `Split` at its first character. */
  lemma SplitFirstPiece(s: string, sep: char)
    requires |s| > 0
    ensures s[0] == sep ==> Split(s, sep) == [[]] + Split(s[1..], sep)
    ensures s[0] != sep ==> Split(s, sep) == [[s[0]] + Split(s[1..], sep)[0]] + Split(s[1..], sep)[1..]
  {
  }

  /** `Split` of a text that starts with the character `c`. */
  lemma SplitCons(c: char, x: string, sep: char)
    ensures c == sep ==> Split([c] + x, sep) == [[]] + Split(x, sep)
    ensures c != sep ==> Split([c] + x, sep) == [[c] + Split(x, sep)[0]] + Split(x, sep)[1..]
  {
    assert ([c] + x)[1..] == x;
  }

  /** One unfolding of `Fields` at its first character. */
  lemma FieldsFirst(s: string)
    requires |s| > 0
    ensures IsSeparator(s[0]) ==> Fields(s) == [[]] + Fields(s[1..])
    ensures !IsSeparator(s[0]) ==> Fields(s) == [[s[0]] + Fields(s[1..])[0]] + Fields(s[1..])[1..]
  {
  }

  lemma CommaFieldsCons(first: string, rest: seq<string>)
    ensures CommaFields([first] + rest) == Split(first, ',') + CommaFields(rest)
  {
    assert ([first] + rest)[1..] == rest;
  }

  lemma {:induction false} FieldsWithoutSeparator(s: string)
    requires ',' !in s && '\n' !in s
    ensures Fields(s) == [s]
    decreases |s|
  {
    if |s| > 0 {
      FieldsWithoutSeparator(s[1..]);
      assert [s[0]] + s[1..] == s;
    }
  }

  /** Cutting at the first separator. */
  lemma {:induction false} FieldsAtSeparator(pre: string, c: char, rest: string)
    requires ',' !in pre && '\n' !in pre && IsSeparator(c)
    ensures Fields(pre + [c] + rest) == [pre] + Fields(rest)
    decreases |pre|
  {
    var s := pre + [c] + rest;
    if |pre| == 0 {
      assert s[1..] == rest;
    } else {
      assert s[1..] == pre[1..] + [c] + rest;
      FieldsAtSeparator(pre[1..], c, rest);
      assert [pre[0]] + pre[1..] == pre;
    }
  }

  /** Whitespace in front of the text, newlines included, yields no URL. */
  lemma {:induction false} LeadingSpaceFields(w: string, x: string)
    requires AllSpace(w)
    ensures FieldTokens(Fields(w + x)) == FieldTokens(Fields(x))
    decreases |w|
  {
    if |w| > 0 {
      var y := w[1..] + x;
      assert (w + x)[1..] == y;
      LeadingSpaceFields(w[1..], x);
      var rest := Fields(y);
      if w[0] == '\n' {
        assert Fields(w + x) == [[]] + rest;
        assert ([[]] + rest)[1..] == rest;
      } else {
        assert !IsSpace(',');
        var f := [[w[0]] + rest[0]] + rest[1..];
        assert Fields(w + x) == f;
        assert f[1..] == rest[1..];
        StripLeadingSpace(w[0], rest[0]);
        assert FieldTokens(rest) == (if Strip(rest[0]) != [] then [Strip(rest[0])] else []) + FieldTokens(rest[1..]);
      }
    } else {
      assert w + x == x;
    }
  }

  /** Whitespace after a field, newlines included, yields no further URL. */
  lemma {:induction false} SpaceAfterField(pre: string, w: string)
    requires ',' !in pre && '\n' !in pre
    requires AllSpace(w)
    ensures FieldTokens(Fields(pre + w)) == FieldTokens([pre])
    decreases |w|
  {
    if |w| == 0 {
      assert pre + w == pre;
      FieldsWithoutSeparator(pre);
    } else if w[0] == '\n' {
      assert pre + w == pre + ['\n'] + w[1..];
      FieldsAtSeparator(pre, '\n', w[1..]);
      LeadingSpaceFields(w[1..], []);
      assert w[1..] + [] == w[1..];
      assert Fields([]) == [[]];
      FieldTokensAppend([pre], Fields(w[1..]));
    } else {
      assert w[0] != ',' by { assert !IsSpace(','); }
      assert pre + w == (pre + [w[0]]) + w[1..];
      SpaceAfterField(pre + [w[0]], w[1..]);
      StripTrailingSpace(pre, w[0]);
    }
  }

  /** Whitespace after the text, newlines included, yields no URL. */
  lemma {:induction false} TrailingSpaceFields(pre: string, x: string, w: string)
    requires ',' !in pre && '\n' !in pre
    requires AllSpace(w)
    ensures FieldTokens(Fields(pre + x + w)) == FieldTokens(Fields(pre + x))
    decreases |x|
  {
    if |x| == 0 {
      Regroup(pre, x, w);
      FieldsWithoutSeparator(pre);
      SpaceAfterField(pre, w);
    } else if IsSeparator(x[0]) {
      TrailingSpaceFields([], x[1..], w);
      Regroup([], x[1..], w);
      SeparatorThenRest(pre, x[0], x[1..], w);
      Regroup(pre, x, w);
    } else {
      TrailingSpaceFields(pre + [x[0]], x[1..], w);
      Regroup(pre, x, w);
    }
  }

  lemma Regroup(pre: string, x: string, w: string)
    ensures |x| == 0 ==> pre + x + w == pre + w && pre + x == pre
    ensures |x| > 0 ==> pre + x + w == pre + [x[0]] + (x[1..] + w) && pre + x == pre + [x[0]] + x[1..]
    ensures |x| > 0 ==> pre + x + w == (pre + [x[0]]) + x[1..] + w && pre + x == (pre + [x[0]]) + x[1..]
    ensures [] + x + w == x + w && [] + x == x
  {
  }

  /** The step of `TrailingSpaceFields` at a separator: the field before it is the same either way. */
  lemma SeparatorThenRest(pre: string, c: char, y: string, w: string)
    requires ',' !in pre && '\n' !in pre && IsSeparator(c)
    requires FieldTokens(Fields(y + w)) == FieldTokens(Fields(y))
    ensures FieldTokens(Fields(pre + [c] + (y + w))) == FieldTokens(Fields(pre + [c] + y))
  {
    FieldsAtSeparator(pre, c, y + w);
    FieldsAtSeparator(pre, c, y);
    FieldTokensAppend([pre], Fields(y + w));
    FieldTokensAppend([pre], Fields(y));
  }

  /**
   An independent reading of `add_download`'s parsing: the URLs are the non-empty
   stripped fields between commas and newlines, in order. The outer `strip()`
   changes nothing.
   */
  lemma ParseUrlsFields(text: string)
    ensures ParseUrls(text) == FieldTokens(Fields(text))
  {
    var core := Strip(text);
    var a, b := StripMargins(text);
    LineTokensFlatten(Split(core, '\n'));
    FieldsByLines(core);
    LeadingSpaceFields(a, core + b);
    TrailingSpaceFields([], core, b);
    Regroup([], core, b);
  }

  /** The `strip()` of the whole input before it is split into lines changes nothing. */
  lemma OuterStripRedundant(text: string)
    ensures ParseUrls(text) == LineTokens(Split(text, '\n'))
  {
    ParseUrlsFields(text);
    LineTokensFlatten(Split(text, '\n'));
    FieldsByLines(text);
  }
}
